=== FILE: README.md ===
# Select lowering for ONNX opset 8 (tf2onnx), modelled in Dafny

tf2onnx converts TensorFlow graphs to ONNX. Opset 8 has no ONNX operator
with the meaning of TensorFlow's `Select(condition, x, y)`, so
`tf2onnx/function/select.py` rewrites one such node into a node list:

- `Size` of the condition;
- a constant `true` continuation flag and a constant 0.0 placeholder;
- the trip count, which is the size unsqueezed to `[N]`;
- a `Loop` whose body gathers row `i` of the condition, squeezes it to a
  scalar and branches on it with an `If`;
- a final `Identity` that keeps the original node's name and re-exposes the
  Loop's scan output.

The then-branch of the `If` gathers row `i` of `x` and the else-branch row
`i` of `y`.

The project has three layers.

- **Data.** ONNX nodes, graphs and attributes are plain datatypes
  (`onnx_ir.dfy`). The graph context is a record of dtype and shape maps.
  `utils.make_name` is a counter-backed registry of fresh names
  (`graph_context.dfy`).
- **The rewrite.** Module `Lowering` (`lowering.dfy`) gives every builder as
  a pure function. Each function takes the registry counter explicitly and
  yields its result (or the error the Python code raises) together with the
  counter after it ran. Module `Select` (`select.dfy`) holds the builders as
  written: methods that grow a node list step by step, draw names from a
  `NameRegistry` object and update a `Context` object. Each method is proved
  to produce exactly what its function describes. The methods are the model
  of the code as written; the functions are their specification, and every
  property below is proved about the functions and carries over to the
  methods through that equality.
- **Properties.** Structure: node order, arities, subgraph signatures, the
  arity guard and the shape fallback (`lowering.dfy`). Well-scopedness
  (`lowering_scopes.dfy`): every node reads only names that are visible at
  its position, and captured names resolve through the enclosing Loop and If.
  Distinct node names (`lowering_names.dfy`). Meaning (`select_semantics.dfy`):
  a small reference interpreter for the ONNX operators involved
  (`onnx_eval.dfy`, following the Loop and If operator entries of the ONNX
  operator specification, opset 8, with two relaxations listed under
  "## Left out": the trip count may be a one-element tensor, and the
  iteration number is fed with the rank the body declares) runs the emitted
  node list. On a 1-D
  condition of `N` rows, the original output name ends up holding the
  per-row selection `[if cond[k] then x[k] else y[k] | k < N]`.

Name budget, in `make_name` calls:

| builder | names |
|---|---|
| a branch graph | 3 |
| the If construct | 7 |
| the loop body | 12 |
| the loop construct | 16 |
| the whole rewrite | 17 |

A failing rewrite stops where the Python code raises, so the counter has
advanced by exactly the names drawn before that point.

Errors:

- `UnsupportedArity`: `len(node.input) == 1`. Only this case is rejected up
  front (select.py:18). A node with two inputs passes the guard and fails
  later, when `node.input[2]` is read.
- `ShapeUnavailable`: neither `x` nor `y` has a known shape.
- `MissingInput(k)` / `MissingOutput(k)`: Python's `IndexError` on
  `node.input[k]` / `node.output[k]`.

## Model

| member | source | states |
|---|---|---|
| OnnxIr.PortNameInjective | tf2onnx/function/select.py:24 | `port_name` never maps two different (node, slot) pairs to the same name |
| GraphContext.NameRegistry.MakeName | tf2onnx/function/select.py:23 | `make_name` returns the name keyed by the current counter and advances the counter by one, so the name differs from every name drawn before |
| GraphContext.Context.SetDtype | tf2onnx/function/select.py:33 | `set_dtype` records the element type of one name and changes nothing else |
| GraphContext.Context.CopyShape | tf2onnx/function/select.py:32 | a `copy_shape` call between the two names is recorded, and the type table is left alone |
| GraphContext.TypeInfo.GetDtype | tf2onnx/function/select.py:21 | `ctx.get_dtype`: the recorded element type of a name, and UNDEFINED for a name the context has no type for |
| GraphContext.TypeInfo.GetShape | tf2onnx/function/select.py:78-80 | `ctx.get_shape`: a shape exactly when the context knows one for the name (`None` otherwise), and then the recorded shape |
| Lowering.Input | tf2onnx/function/select.py:21 | reading `node.input[k]` succeeds exactly when `k` is in range, and otherwise fails with MissingInput(k) |
| Lowering.FirstKnown | tf2onnx/function/select.py:77-83 | the first known shape of a prioritised candidate list: known iff some candidate is known, and every earlier candidate is unknown |
| Lowering.GetHiddenSizeBestEffort | tf2onnx/function/select.py:77-83 | a result exists only when `x` exists; failures are only a missing input 1 or 2, or ShapeUnavailable |
| Lowering.HiddenSizeFallback | tf2onnx/function/select.py:77-83 | `x`'s shape when known, else `y`'s; ShapeUnavailable iff both are unknown; MissingInput(2) iff `x` is unknown and there is no `y` |
| Lowering.HiddenSizeIsFirstKnown | tf2onnx/function/select.py:77-83 | with three inputs the result is the first known of `[shape(x), shape(y)]`, and the function never yields "no shape" without failing |
| Lowering.BranchGraph | tf2onnx/function/select.py:155-187 | the branch graph declares no formal inputs and the one output `y` (operand dtype, `data_shape[1:]`); it has three nodes, and the third writes `y` (the node names are stated by `LoweringNames.BranchNames`) |
| Lowering.BranchSignature | tf2onnx/function/select.py:155-187 | a branch graph has no formal inputs and the single output `y` with the operand's dtype and shape `data_shape[1:]`; it gathers the operand at the captured `i`, squeezes axis 0 and writes `y` |
| Lowering.IfOp | tf2onnx/function/select.py:141-152 | the If construct succeeds iff the shape is found and `y` exists; shape errors are raised before any name is drawn; MissingInput(2) after the then-branch's 3 names; 7 names on success |
| Lowering.IfOpNode | tf2onnx/function/select.py:141-152 | the If node reads only the scalar condition, has one output `port_name(If)`, takes `then_branch` from `x` and `else_branch` from `y` |
| Lowering.LoopBody | tf2onnx/function/select.py:85-138 | the loop body fails exactly when the If construct fails, with the same error and counter; on success it draws 12 names |
| Lowering.LoopBodyGraph | tf2onnx/function/select.py:85-138 | body inputs `i` (INT64, [1]), `cond` (BOOL), `fake_var` (FLOAT); outputs `cond_output`, `fake_var_output`, `output` (Select dtype, `data_shape[1:]`); nodes Gather(cond, i), Squeeze axis 0, If, then three Identities |
| Lowering.LoopOp | tf2onnx/function/select.py:43-75 | the loop construct fails exactly when the body fails, with the body's error; on success it returns four nodes, the last with two outputs |
| Lowering.LoopOpNodes | tf2onnx/function/select.py:43-75 | constant `true` BOOL scalar, constant 0.0 FLOAT scalar, Unsqueeze(axes [0]) of the batch size, and a Loop with inputs (trip count, flag, placeholder), outputs `port_name(loop, 0)`, `port_name(loop, 1)` and the body attribute |
| Lowering.SelectLowering | tf2onnx/function/select.py:15-40 | arity guard: one input gives UnsupportedArity before any name is drawn; no input gives MissingInput(1); success implies at least two inputs, one output and six nodes |
| Lowering.SelectLoweringNodes | tf2onnx/function/select.py:20-40 | the result is Size, then the loop construct, then the Identity reading the Loop's second output; with no output name it fails with MissingOutput(0) |
| Lowering.SelectLoweringLoopFailure | tf2onnx/function/select.py:28-29 | a failure of the loop construct is the failure of the whole rewrite |
| Lowering.SelectLoweringOrder | tf2onnx/function/select.py:15-40 | the six nodes in order (Size, flag, placeholder, Unsqueeze, Loop, Identity), with the Loop wired to the three before it and the Identity carrying `node.name` and writing `port_name(node.name)` |
| Select.SelectOp8 | tf2onnx/function/select.py:15-40 | emits what SelectLowering describes and advances the registry by its count; on success sets the output's dtype to `x`'s and records one `copy_shape(output, scan output)` call; on failure leaves the context untouched |
| Select.CreateLoopOp | tf2onnx/function/select.py:43-75 | emits what LoopOp describes and advances the registry by its count |
| Select.CreateLoopBodyGraph | tf2onnx/function/select.py:85-138 | emits what LoopBody describes and advances the registry by its count |
| Select.CreateIfOp | tf2onnx/function/select.py:141-152 | emits what IfOp describes and advances the registry by its count |
| Select.CreateBodyGraphForIfBranch | tf2onnx/function/select.py:155-187 | emits BranchGraph and advances the registry by 3 |
| SelectSemantics.BranchSelectsRow | tf2onnx/function/select.py:155-187 | run with `i = [k]`, a branch graph outputs row `k` of its operand |
| SelectSemantics.IfSelectsRow | tf2onnx/function/select.py:141-152 | the If node outputs `x[k]` when the scalar condition is true and `y[k]` otherwise |
| SelectSemantics.BodyStepSelects | tf2onnx/function/select.py:85-138 | one body iteration passes the flag and the placeholder through and yields row `k` of the selection as its scan value |
| SelectSemantics.LoopRunSelects | tf2onnx/function/select.py:60-74 | iterating from row `k` to the trip count extends the scan output to all rows of the selection |
| SelectSemantics.LoopSelects | tf2onnx/function/select.py:43-75 | with trip count `[N]`, flag `true` and placeholder 0.0, the Loop outputs the untouched placeholder and the full per-row selection |
| SelectSemantics.CountFlags | tf2onnx/function/select.py:23-25 | `Size` of a 1-D condition is its row count |
| SelectSemantics.SelectComputesRows | tf2onnx/function/select.py:15-40 | running the emitted node list binds `port_name(node.name)` to `[if cond[k] then x[k] else y[k]]` for every row `k` |
| LoweringScopes.BranchGraphScoped | tf2onnx/function/select.py:155-187 | a branch graph is a well-formed scope: it reads its operand and `i` from enclosing graphs, defines only new names, and produces its declared output `y` |
| LoweringScopes.IfOpScoped | tf2onnx/function/select.py:141-152 | the If node reads only visible names, defines a new one, and both branches are well-formed scopes |
| LoweringScopes.LoopBodyScoped | tf2onnx/function/select.py:85-138 | the body is a well-formed scope, and every declared output is produced by a node inside it |
| LoweringScopes.SelectLoweringScoped | tf2onnx/function/select.py:15-40 | run in order, each emitted node reads only the Select's inputs and earlier outputs, never redefines a visible name, and all nested graphs are well scoped |
| LoweringNames.BranchNames | tf2onnx/function/select.py:159-174 | a branch graph's nodes are named Gather, Squeeze, Identity from three consecutive registry draws |
| LoweringNames.IfNames | tf2onnx/function/select.py:141-152 | the If node and its branches carry seven distinct names drawn during the construct |
| LoweringNames.BodyNames | tf2onnx/function/select.py:85-138 | the loop body's nodes, nested ones included, carry twelve distinct names drawn while it was built |
| LoweringNames.SelectLoweringNames | tf2onnx/function/select.py:15-40 | the rewrite's node names are seventeen distinct freshly drawn names plus `node.name`; all are distinct when `node.name` predates the rewrite |
| LoweringNames.SuccessiveRewritesDisjoint | tf2onnx/function/select.py:15-40 | two rewrites run one after the other on differently named, pre-existing nodes share no node name |

## Left out

- ONNX protobuf construction (`helper.make_node`, `make_tensor`, `make_graph`, `make_tensor_value_info`, `TensorProto`) is replaced by datatypes and an element-type enum.
- `tf2onnx.graph.Node` and the context's internals are not part of this model. The context is a record of a dtype map (unknown names read as UNDEFINED) and a shape map.
- GraphContext.TypeInfo.GetDtype: a name whose element type was never inferred reads as UNDEFINED, and the rewrite goes on with that type. The real program could stop there instead: the graph's type lookup can fail on an unknown name, and the ONNX value-info builder rejects a missing element type (select.py:135, 179). The model has no such failure, so its rewrite succeeds where the real one may not.
- GraphContext.Context.CopyShape: only the call and its argument order are recorded. Which direction `copy_shape` copies is not visible in the code, so the shape table is left unchanged.
- The implementations of `utils.make_name` and `port_name` are not part of this model; their behaviour is modelled as follows. A name drawn from the registry is the pair (prefix, counter value), and `port_name` is a constructor, so it is injective by construction. A plain string that happens to spell a port name (such as `x:0`) is a different name in the model.
- A name of the TensorFlow graph (`Plain`) never equals a registry name (`Fresh`): they are different constructors. The real `make_name` returns a string such as `Size__5`, which an existing node name could in principle spell. `Predates` counts every `Plain` name as older than the counter, so the distinctness of `LoweringNames.SelectLoweringNames` and the no-shadowing of `LoweringScopes.SelectLoweringScoped` rely on this assumption.
- Global uniqueness of output names is not claimed, because the code does not have it: both branch graphs write the fixed name `y`, and every loop body writes `output`, `cond_output` and `fake_var_output`. Proved instead: node names are distinct, and within each scope no name is defined twice or shadows a visible one, provided the enclosing graph does not already use the fixed names listed on the `LoweringScopes.SelectLoweringScoped` line below.
- The interpreter treats element values as opaque atoms. The 0.0 placeholder's value and all tensor arithmetic are not modelled, since the rewrite only moves rows.
- Conditions are 1-D. For higher-rank conditions `Size` counts every element, not the rows.
- OnnxEval.TripCount: the trip count `M` is accepted as a one-element tensor `[N]` as well as a scalar, as onnxruntime accepts it. The Loop operator entry asks for a scalar, and the rewrite feeds `[N]`, the Unsqueeze of the Size (select.py:58-61, 66). `SelectSemantics.LoopSelects` and `SelectSemantics.SelectComputesRows` rely on this leniency; an interpreter that takes only scalars would reject the emitted Loop.
- The interpreter covers only the operators the rewrite emits, with the attributes it uses. Its Loop runs the body on the trip count with the condition flag, and the body's `i` is fed as a rank-1 tensor `[k]`, as the body declares it (select.py:87); the Loop operator entry passes the iteration number as a scalar. Shape inference and dtype checking of the ONNX runtime are not part of it.
- LoweringScopes.SelectLoweringScoped: the no-shadowing result holds only when the enclosing graph does not already define any of the seven fixed names that the loop body and the branch graphs use (`i`, `cond`, `fake_var`, `output`, `cond_output`, `fake_var_output`, `y`; select.py:87-135, 159-179), nor `port_name(node.name)`, which the final Identity writes (select.py:35-37). If one of them is already visible, the emitted body or branch shadows it, or the Identity redefines it, and the lemma says nothing about that graph.
- SelectSemantics.SelectComputesRows: the Select's inputs must predate the rewrite and must not be named `i`, `cond` or `fake_var`. A name equal to one of the body's formal inputs would be shadowed inside the loop body. TensorFlow output names carry a `:k` port suffix, so this case does not arise from converted graphs. The rest of the TensorFlow graph is not modelled.
- tests/test_lstm.py is not part of this model. It is an end-to-end conversion test that needs the TensorFlow runtime.
- Concurrency of the shared name registry is not modelled. The registry is one sequential counter.

=== FILE: graph_context.dfy ===
/**
 * The collaborators the lowering consumes: the graph context (element types
 * and shapes known per value name, and the two calls that write back to it)
 * and the process-wide name registry behind `utils.make_name`.
 */
module GraphContext {

  import opened Wrappers
  import opened OnnxIr

  /** What the graph context knows about values. */
  datatype TypeInfo = TypeInfo(dtypes: map<Name, ElemType>, shapes: map<Name, Shape>) {

    /** `ctx.get_dtype`: the inferred element type, `Undefined` if none. */
    function GetDtype(n: Name): (t: ElemType)
      ensures n in dtypes ==> t == dtypes[n]
      ensures n !in dtypes ==> t == Undefined
    {
      if n in dtypes then dtypes[n] else Undefined
    }

    /** `ctx.get_shape`: the inferred shape, `None` if unknown. */
    function GetShape(n: Name): (r: Option<Shape>)
      ensures r.Some? <==> n in shapes
      ensures r.Some? ==> r.value == shapes[n]
    {
      if n in shapes then Some(shapes[n]) else None
    }
  }

  class Context {
    var info: TypeInfo
    /** Every `copy_shape(a, b)` call made so far, in order. */
    var shapeCopies: seq<(Name, Name)>

    constructor (info0: TypeInfo)
      ensures info == info0 && shapeCopies == []
    {
      info := info0;
      shapeCopies := [];
    }

    /** `ctx.set_dtype(n, t)`. */
    method SetDtype(n: Name, t: ElemType)
      modifies this
      ensures info == old(info).(dtypes := old(info).dtypes[n := t])
      ensures info.GetDtype(n) == t
      ensures shapeCopies == old(shapeCopies)
    {
      info := info.(dtypes := info.dtypes[n := t]);
    }

    /** `ctx.copy_shape(a, b)`: only the call is recorded; its effect on the
        shape table is not part of this model. */
    method CopyShape(a: Name, b: Name)
      modifies this
      ensures info == old(info)
      ensures shapeCopies == old(shapeCopies) + [(a, b)]
    {
      shapeCopies := shapeCopies + [(a, b)];
    }
  }

  /** The global counter behind `utils.make_name`. */
  class NameRegistry {
    var counter: nat

    constructor (start: nat)
      ensures counter == start
    {
      counter := start;
    }

    /** `utils.make_name(prefix)`: a name no earlier name can equal. */
    method MakeName(prefix: string) returns (n: Name)
      modifies this
      ensures n == Fresh(prefix, old(counter))
      ensures counter == old(counter) + 1
    {
      n := Fresh(prefix, counter);
      counter := counter + 1;
    }
  }
}

=== FILE: lowering.dfy ===
/**
 * The Select lowering of tf2onnx/function/select.py as pure functions.
 * Every builder takes the name registry's counter `c` explicitly and yields
 * what it emits together with the counter afterwards; the methods of module
 * Select are proved to compute exactly these values.
 *
 * Name budget (calls to make_name): a branch graph takes 3, the If
 * construct 7, the loop body 12, the loop construct 16 and the whole
 * rewrite 17.
 */
module Lowering {

  import opened Wrappers
  import opened OnnxIr
  import opened Scopes
  import opened GraphContext

  /** Why a rewrite fails: the arity guard, the shape fallback running dry,
      or a Python IndexError on the node's input or output list. */
  datatype Error = UnsupportedArity | ShapeUnavailable | MissingInput(index: nat) | MissingOutput(index: nat)

  /** A builder's result and the registry counter after it ran. */
  datatype Emitted<T> = Emitted(result: Result<T, Error>, next: nat)

  /** The TensorFlow `Select(condition, x, y)` node being rewritten. */
  datatype SelectNode = SelectNode(name: Name, inputs: seq<Name>, outputs: seq<Name>)

  /** `node.input[k]`, failing as Python's list indexing does. */
  function Input(node: SelectNode, k: nat): (r: Result<Name, Error>)
    ensures r.Success? <==> k < |node.inputs|
    ensures r.Success? ==> r.value == node.inputs[k]
    ensures r.Failure? ==> r.error == MissingInput(k)
  {
    if k < |node.inputs| then Success(node.inputs[k]) else Failure(MissingInput(k))
  }

  // ---------------------------------------------------------------------
  // Shape fallback
  // ---------------------------------------------------------------------

  /** The first known shape of a prioritised list of candidates. */
  function FirstKnown(candidates: seq<Option<Shape>>): (r: Option<Shape>)
    ensures r.Some? <==> exists k :: 0 <= k < |candidates| && candidates[k].Some?
    ensures r.Some? ==> exists k :: 0 <= k < |candidates| && candidates[k] == r &&
                                    forall j :: 0 <= j < k ==> candidates[j].None?
  {
    if |candidates| == 0 then None
    else if candidates[0].Some? then candidates[0]
    else
      var rest := FirstKnown(candidates[1..]);
      assert forall k :: 1 <= k < |candidates| ==> candidates[k] == candidates[1..][k - 1];
      rest
  }

  /**
   * `get_hidden_size_best_effort`: the shape of `input[1]` when the context
   * knows it, else that of `input[2]`, else ShapeUnavailable.
   */
  function GetHiddenSizeBestEffort(info: TypeInfo, node: SelectNode): (r: Result<Shape, Error>)
    ensures r.Success? ==> |node.inputs| >= 2
    ensures r.Failure? ==> r.error in {MissingInput(1), MissingInput(2), ShapeUnavailable}
  {
    var x :- Input(node, 1);
    match info.GetShape(x)
    case Some(s) => Success(s)
    case None =>
      var y :- Input(node, 2);
      match info.GetShape(y)
      case Some(s) => Success(s)
      case None => Failure(ShapeUnavailable)
  }

  /** The fallback order: `input[1]`'s shape when known, otherwise
      `input[2]`'s; ShapeUnavailable exactly when both are unknown, and a
      missing input only when the fallback reaches past the input list. */
  lemma HiddenSizeFallback(info: TypeInfo, node: SelectNode)
    ensures var r := GetHiddenSizeBestEffort(info, node);
      && (|node.inputs| < 2 ==> r == Failure(MissingInput(1)))
      && (|node.inputs| >= 2 && node.inputs[1] in info.shapes ==> r == Success(info.shapes[node.inputs[1]]))
      && (r.Success? ==>
           (node.inputs[1] in info.shapes && r.value == info.shapes[node.inputs[1]]) ||
           (node.inputs[1] !in info.shapes && |node.inputs| >= 3 &&
            node.inputs[2] in info.shapes && r.value == info.shapes[node.inputs[2]]))
      && (r == Failure(ShapeUnavailable) <==>
           |node.inputs| >= 3 && node.inputs[1] !in info.shapes && node.inputs[2] !in info.shapes)
      && (r == Failure(MissingInput(2)) <==> |node.inputs| == 2 && node.inputs[1] !in info.shapes)
  {
  }

  /** With both candidates present, the result is the first known of the
      two shapes, in priority order. */
  lemma HiddenSizeIsFirstKnown(info: TypeInfo, node: SelectNode)
    requires |node.inputs| >= 3
    ensures GetHiddenSizeBestEffort(info, node) ==
      match FirstKnown([info.GetShape(node.inputs[1]), info.GetShape(node.inputs[2])])
      case Some(s) => Success(s)
      case None => Failure(ShapeUnavailable)
  {
  }

  // ---------------------------------------------------------------------
  // Builders
  // ---------------------------------------------------------------------

  const Axes0 := Attribute("axes", Ints([0]))

  /**
   * `create_body_graph_for_if_branch`: a graph without formal inputs that
   * gathers row `i` (captured from the loop body) of `input`, squeezes the
   * leading axis and exposes the row as its one output "y".
   */
  function BranchGraph(input: Name, dtype: ElemType, dataShape: Shape, c: nat): (g: Graph)
    ensures g.inputs == [] && g.outputs == [ValueInfo(Plain("y"), dtype, Tail(dataShape))]
    ensures |g.nodes| == 3 && g.nodes[2].outputs == [Plain("y")]
  {
    var gather := Fresh("Gather", c);
    var squeeze := Fresh("Squeeze", c + 1);
    var identity := Fresh("Identity", c + 2);
    var nodes := [
      Node(Gather, [input, Plain("i")], [PortName(gather, 0)], gather, []),
      Node(Squeeze, [PortName(gather, 0)], [PortName(squeeze, 0)], squeeze, [Axes0]),
      Node(Identity, [PortName(squeeze, 0)], [Plain("y")], identity, [])
    ];
    Graph(nodes, "if-body-graph", [], [ValueInfo(Plain("y"), dtype, Tail(dataShape))])
  }

  /** A branch graph declares no formal inputs and one output "y" of the
      operand's element type and the shape `data_shape[1:]`; its nodes
      gather the operand at the captured `i`, squeeze axis 0, and write the
      squeezed row to "y". */
  lemma BranchSignature(input: Name, dtype: ElemType, dataShape: Shape, c: nat)
    ensures var g := BranchGraph(input, dtype, dataShape, c);
      && g.inputs == []
      && g.outputs == [ValueInfo(Plain("y"), dtype, if |dataShape| == 0 then [] else dataShape[1..])]
      && |g.nodes| == 3
      && g.nodes[0].op == Gather && g.nodes[0].inputs == [input, Plain("i")] && |g.nodes[0].outputs| == 1
      && g.nodes[1].op == Squeeze && g.nodes[1].inputs == g.nodes[0].outputs && g.nodes[1].attrs == [Axes0]
      && g.nodes[2].op == Identity && g.nodes[2].inputs == g.nodes[1].outputs && g.nodes[2].outputs == [Plain("y")]
  {
  }

  /**
   * `create_if_op`: an If node on the scalar `condName` whose then-branch
   * selects from `input[1]` and whose else-branch selects from `input[2]`.
   * Yields the node and the name of its one output.
   */
  function IfOp(info: TypeInfo, node: SelectNode, condName: Name, c: nat): (r: Emitted<(Node, Name)>)
    ensures r.result.Success? <==> GetHiddenSizeBestEffort(info, node).Success? && |node.inputs| >= 3
    ensures GetHiddenSizeBestEffort(info, node).Failure? ==>
      r == Emitted(Failure(GetHiddenSizeBestEffort(info, node).error), c)
    ensures GetHiddenSizeBestEffort(info, node).Success? && |node.inputs| < 3 ==>
      r == Emitted(Failure(MissingInput(2)), c + 3)
    ensures r.result.Success? ==> r.next == c + 7
  {
    match GetHiddenSizeBestEffort(info, node)
    case Failure(e) => Emitted(Failure(e), c)
    case Success(shape) =>
      var thenGraph := BranchGraph(node.inputs[1], info.GetDtype(node.inputs[1]), shape, c);
      if |node.inputs| < 3 then Emitted(Failure(MissingInput(2)), c + 3)
      else
        var elseGraph := BranchGraph(node.inputs[2], info.GetDtype(node.inputs[2]), shape, c + 3);
        var ifName := Fresh("If", c + 6);
        var n := Node(If, [condName], [PortName(ifName, 0)], ifName,
                      [Attribute("then_branch", GraphAttr(thenGraph)), Attribute("else_branch", GraphAttr(elseGraph))]);
        Emitted(Success((n, PortName(ifName, 0))), c + 7)
  }

  /** The If node: one input (the scalar condition), one output, the
      then-branch reading `input[1]` and the else-branch reading `input[2]`. */
  lemma IfOpNode(info: TypeInfo, node: SelectNode, condName: Name, c: nat)
    requires IfOp(info, node, condName, c).result.Success?
    ensures
      var (n, out) := IfOp(info, node, condName, c).result.value;
      var shape := GetHiddenSizeBestEffort(info, node).value;
      && IfOp(info, node, condName, c).next == c + 7
      && n.op == If && n.inputs == [condName] && n.outputs == [out]
      && n.name == Fresh("If", c + 6) && out == PortName(n.name, 0)
      && n.attrs == [
           Attribute("then_branch", GraphAttr(BranchGraph(node.inputs[1], info.GetDtype(node.inputs[1]), shape, c))),
           Attribute("else_branch", GraphAttr(BranchGraph(node.inputs[2], info.GetDtype(node.inputs[2]), shape, c + 3)))]
  {
  }

  /** The three formal inputs the loop body declares: iteration number,
      continuation flag and the placeholder loop-carried value. */
  const BodyInputs := [
    ValueInfo(Plain("i"), Int64, [1]),
    ValueInfo(Plain("cond"), Bool, []),
    ValueInfo(Plain("fake_var"), Float, [])]

  /** The loop body's outputs: continuation flag, carried value, scan value. */
  function BodyOutputs(dtype: ElemType, shape: Shape): seq<ValueInfo>
  {
    [ValueInfo(Plain("cond_output"), Bool, []),
     ValueInfo(Plain("fake_var_output"), Float, []),
     ValueInfo(Plain("output"), dtype, Tail(shape))]
  }

  /** The name of the scalar condition the loop body branches on. */
  function BodyCondName(c: nat): Name
  {
    PortName(Fresh("Squeeze", c + 1), 0)
  }

  /**
   * `create_loop_body_graph`: gather and squeeze the condition at `i` into a
   * scalar, branch on it with the If construct, and re-expose the flag, the
   * carried value and the selected row as the body's outputs.
   */
  function LoopBody(info: TypeInfo, node: SelectNode, condId: Name, dtype: ElemType, c: nat): (r: Emitted<Graph>)
    ensures var ifStep := IfOp(info, node, BodyCondName(c), c + 2);
      && (r.result.Success? <==> ifStep.result.Success?)
      && (ifStep.result.Failure? ==> r == Emitted(Failure(ifStep.result.error), ifStep.next))
    ensures r.result.Success? ==> r.next == c + 12
  {
    var gather := Fresh("Gather", c);
    var squeeze := Fresh("Squeeze", c + 1);
    var gatherNode := Node(Gather, [condId, Plain("i")], [PortName(gather, 0)], gather, []);
    var squeezeNode := Node(Squeeze, [PortName(gather, 0)], [PortName(squeeze, 0)], squeeze, [Axes0]);
    var ifStep := IfOp(info, node, PortName(squeeze, 0), c + 2);
    if ifStep.result.Failure? then Emitted(Failure(ifStep.result.error), ifStep.next)
    else
      var (ifNode, ifOut) := ifStep.result.value;
      var outputNode := Node(Identity, [ifOut], [Plain("output")], Fresh("Identity", c + 9), []);
      var condNode := Node(Identity, [Plain("cond")], [Plain("cond_output")], Fresh("Identity", c + 10), []);
      var fakeNode := Node(Identity, [Plain("fake_var")], [Plain("fake_var_output")], Fresh("Identity", c + 11), []);
      var shape := GetHiddenSizeBestEffort(info, node).value;
      var nodes := [gatherNode, squeezeNode, ifNode, outputNode, condNode, fakeNode];
      Emitted(Success(Graph(nodes, "loop-body-graph", BodyInputs, BodyOutputs(dtype, shape))), c + 12)
  }

  /** The loop body: its declared signature, and its six nodes in order. */
  lemma LoopBodyGraph(info: TypeInfo, node: SelectNode, condId: Name, dtype: ElemType, c: nat)
    requires LoopBody(info, node, condId, dtype, c).result.Success?
    ensures
      var g := LoopBody(info, node, condId, dtype, c).result.value;
      var ifStep := IfOp(info, node, BodyCondName(c), c + 2);
      && LoopBody(info, node, condId, dtype, c).next == c + 12
      && g.inputs == BodyInputs
      && g.outputs == BodyOutputs(dtype, GetHiddenSizeBestEffort(info, node).value)
      && |g.nodes| == 6
      && g.nodes[0] == Node(Gather, [condId, Plain("i")], [PortName(Fresh("Gather", c), 0)], Fresh("Gather", c), [])
      && g.nodes[1] == Node(Squeeze, g.nodes[0].outputs, [BodyCondName(c)], Fresh("Squeeze", c + 1), [Axes0])
      && g.nodes[2] == ifStep.result.value.0
      && g.nodes[3] == Node(Identity, [ifStep.result.value.1], [Plain("output")], Fresh("Identity", c + 9), [])
      && g.nodes[4] == Node(Identity, [Plain("cond")], [Plain("cond_output")], Fresh("Identity", c + 10), [])
      && g.nodes[5] == Node(Identity, [Plain("fake_var")], [Plain("fake_var_output")], Fresh("Identity", c + 11), [])
  {
  }

  /** The `value` attribute of a scalar Constant node. */
  function ScalarValue(name: Name, elemType: ElemType, lit: Literal): Attribute
  {
    Attribute("value", TensorAttr(TensorLiteral(name, elemType, [], [lit])))
  }

  /**
   * `create_loop_op`: the constant `true` continuation flag, the constant
   * 0.0 placeholder, the trip count (the batch size unsqueezed to shape [1])
   * and the Loop node whose body attribute is the loop body graph.
   */
  function LoopOp(info: TypeInfo, node: SelectNode, batchId: Name, dtype: ElemType, c: nat): (r: Emitted<seq<Node>>)
    ensures |node.inputs| == 0 ==> r == Emitted(Failure(MissingInput(0)), c + 4)
    ensures |node.inputs| > 0 ==>
      var body := LoopBody(info, node, node.inputs[0], dtype, c + 4);
      && (r.result.Success? <==> body.result.Success?)
      && (body.result.Failure? ==> r == Emitted(Failure(body.result.error), body.next))
    ensures r.result.Success? ==>
      && r.next == LoopBody(info, node, node.inputs[0], dtype, c + 4).next
      && |r.result.value| == 4 && |r.result.value[3].outputs| == 2
  {
    var condName := Fresh("condition", c);
    var condNode := Node(Constant, [], [condName], condName, [ScalarValue(condName, Bool, BoolLit(true))]);
    var fakeName := Fresh("fake_var", c + 1);
    var fakeNode := Node(Constant, [], [fakeName], fakeName, [ScalarValue(fakeName, Float, FloatLit(0))]);
    var tripName := Fresh("loop_gather_indices", c + 2);
    var tripNode := Node(Unsqueeze, [batchId], [PortName(tripName, 0)], tripName, [Axes0]);
    var loopName := Fresh("loop", c + 3);
    if |node.inputs| == 0 then Emitted(Failure(MissingInput(0)), c + 4)
    else
      var body := LoopBody(info, node, node.inputs[0], dtype, c + 4);
      if body.result.Failure? then Emitted(Failure(body.result.error), body.next)
      else
        var loopNode := Node(Loop, [PortName(tripName, 0), condName, fakeName],
                             [PortName(loopName, 0), PortName(loopName, 1)], loopName,
                             [Attribute("body", GraphAttr(body.result.value))]);
        Emitted(Success([condNode, fakeNode, tripNode, loopNode]), body.next)
  }

  /** The node list of the loop construct, in order: the constant `true`
      flag, the constant 0.0 placeholder, the trip count, and the Loop. */
  lemma LoopOpNodes(info: TypeInfo, node: SelectNode, batchId: Name, dtype: ElemType, c: nat)
    requires LoopOp(info, node, batchId, dtype, c).result.Success?
    ensures
      var nodes := LoopOp(info, node, batchId, dtype, c).result.value;
      var body := LoopBody(info, node, node.inputs[0], dtype, c + 4);
      var condName, fakeName := Fresh("condition", c), Fresh("fake_var", c + 1);
      var tripName, loopName := Fresh("loop_gather_indices", c + 2), Fresh("loop", c + 3);
      && LoopOp(info, node, batchId, dtype, c).next == body.next
      && |nodes| == 4
      && nodes[0] == Node(Constant, [], [condName], condName, [ScalarValue(condName, Bool, BoolLit(true))])
      && nodes[1] == Node(Constant, [], [fakeName], fakeName, [ScalarValue(fakeName, Float, FloatLit(0))])
      && nodes[2] == Node(Unsqueeze, [batchId], [PortName(tripName, 0)], tripName, [Axes0])
      && nodes[3] == Node(Loop, [PortName(tripName, 0), condName, fakeName],
                          [PortName(loopName, 0), PortName(loopName, 1)], loopName,
                          [Attribute("body", GraphAttr(body.result.value))])
  {
  }

  /**
   * `select_op8`: the node list that replaces `Select(condition, x, y)`:
   * Size of the condition, the loop construct, and an Identity that carries
   * the original node's name and re-exposes the loop's scan output.
   */
  function SelectLowering(info: TypeInfo, node: SelectNode, c: nat): (r: Emitted<seq<Node>>)
    ensures |node.inputs| == 1 ==> r == Emitted(Failure(UnsupportedArity), c)
    ensures |node.inputs| == 0 ==> r == Emitted(Failure(MissingInput(1)), c)
    ensures r.result.Success? ==> |node.inputs| >= 2 && |node.outputs| > 0 && |r.result.value| == 6
  {
    if |node.inputs| == 1 then Emitted(Failure(UnsupportedArity), c)
    else if |node.inputs| == 0 then Emitted(Failure(MissingInput(1)), c)
    else
      var dtype := info.GetDtype(node.inputs[1]);
      var sizeName := Fresh("Size", c);
      var sizeNode := Node(Size, [node.inputs[0]], [PortName(sizeName, 0)], sizeName, []);
      var loopStep := LoopOp(info, node, PortName(sizeName, 0), dtype, c + 1);
      if loopStep.result.Failure? then Emitted(Failure(loopStep.result.error), loopStep.next)
      else
        var nodes := [sizeNode] + loopStep.result.value;
        var scanOut := nodes[|nodes| - 1].outputs[1];
        if |node.outputs| == 0 then Emitted(Failure(MissingOutput(0)), loopStep.next)
        else
          var output := Node(Identity, [scanOut], [PortName(node.name, 0)], node.name, []);
          Emitted(Success(nodes + [output]), loopStep.next)
  }

  /** The replacement node list, in order: Size of the condition, the four
      nodes of the loop construct, and the Identity that keeps the original
      node's name and reads the loop's scan output. */
  lemma SelectLoweringNodes(info: TypeInfo, node: SelectNode, c: nat, loopNodes: seq<Node>)
    requires |node.inputs| >= 2
    requires LoopOp(info, node, PortName(Fresh("Size", c), 0), info.GetDtype(node.inputs[1]), c + 1).result == Success(loopNodes)
    ensures |loopNodes| == 4 && |loopNodes[3].outputs| == 2
    ensures SelectLowering(info, node, c).next == LoopOp(info, node, PortName(Fresh("Size", c), 0), info.GetDtype(node.inputs[1]), c + 1).next
    ensures |node.outputs| == 0 ==> SelectLowering(info, node, c).result == Failure(MissingOutput(0))
    ensures |node.outputs| > 0 ==> SelectLowering(info, node, c).result == Success(
      [Node(Size, [node.inputs[0]], [PortName(Fresh("Size", c), 0)], Fresh("Size", c), [])]
      + loopNodes
      + [Node(Identity, [loopNodes[3].outputs[1]], [PortName(node.name, 0)], node.name, [])])
  {
  }

  /** A failure of the loop construct is the failure of the whole rewrite. */
  lemma SelectLoweringLoopFailure(info: TypeInfo, node: SelectNode, c: nat)
    requires |node.inputs| >= 2
    requires LoopOp(info, node, PortName(Fresh("Size", c), 0), info.GetDtype(node.inputs[1]), c + 1).result.Failure?
    ensures var loopStep := LoopOp(info, node, PortName(Fresh("Size", c), 0), info.GetDtype(node.inputs[1]), c + 1);
      SelectLowering(info, node, c) == Emitted(Failure(loopStep.result.error), loopStep.next)
  {
  }

  /**
   * The replacement node list, node by node: Size of the condition, the
   * constant `true` flag, the placeholder, the trip count `[size]`, the
   * Loop reading those three, and the Identity that takes the original
   * node's name and re-exposes the Loop's scan output.
   */
  lemma SelectLoweringOrder(info: TypeInfo, node: SelectNode, c: nat)
    requires SelectLowering(info, node, c).result.Success?
    ensures |node.inputs| >= 2
    ensures
      var nodes := SelectLowering(info, node, c).result.value;
      var sizeName, condName, fakeName := Fresh("Size", c), Fresh("condition", c + 1), Fresh("fake_var", c + 2);
      var tripName, loopName := Fresh("loop_gather_indices", c + 3), Fresh("loop", c + 4);
      var loopStep := LoopOp(info, node, PortName(sizeName, 0), info.GetDtype(node.inputs[1]), c + 1);
      && loopStep.result.Success?
      && |nodes| == 6
      && nodes[0] == Node(Size, [node.inputs[0]], [PortName(sizeName, 0)], sizeName, [])
      && nodes[1] == Node(Constant, [], [condName], condName, [ScalarValue(condName, Bool, BoolLit(true))])
      && nodes[2] == Node(Constant, [], [fakeName], fakeName, [ScalarValue(fakeName, Float, FloatLit(0))])
      && nodes[3] == Node(Unsqueeze, [PortName(sizeName, 0)], [PortName(tripName, 0)], tripName, [Axes0])
      && nodes[4] == loopStep.result.value[3]
      && nodes[4].op == Loop
      && nodes[4].inputs == [PortName(tripName, 0), condName, fakeName]
      && nodes[4].outputs == [PortName(loopName, 0), PortName(loopName, 1)]
      && nodes[5] == Node(Identity, [PortName(loopName, 1)], [PortName(node.name, 0)], node.name, [])
  {
    var batchId := PortName(Fresh("Size", c), 0);
    var dtype := info.GetDtype(node.inputs[1]);
    var loopNodes := LoopOp(info, node, batchId, dtype, c + 1).result.value;
    SelectLoweringNodes(info, node, c, loopNodes);
    LoopOpNodes(info, node, batchId, dtype, c + 1);
  }
}

=== FILE: lowering_names.dfy ===
/**
 * Node names.  Every node the Select rewrite creates, at any depth, is
 * named by `utils.make_name`, except the final Identity, which takes over
 * the original node's name.  The names drawn from the registry are pairwise
 * distinct and all come from the counter window the rewrite consumed, so
 * rewrites run one after another never produce the same node name.
 */
module LoweringNames {

  import opened OnnxIr
  import opened Scopes
  import opened GraphContext
  import opened Lowering

  /** `s` is a list of distinct registry names drawn while the counter
      stood in `[lo, hi)`. */
  predicate Window(s: seq<Name>, lo: nat, hi: nat)
  {
    FreshIn(s, lo, hi) && Distinct(s)
  }

  lemma {:induction false} NodeNamesAppend(a: seq<Node>, b: seq<Node>)
    ensures NodeNames(a + b) == NodeNames(a) + NodeNames(b)
    decreases |a|
  {
    if |a| == 0 {
      assert a + b == b;
    } else {
      assert (a + b)[0] == a[0] && (a + b)[1..] == a[1..] + b;
      NodeNamesAppend(a[1..], b);
    }
  }

  lemma NodeNamesOne(n: Node)
    ensures NodeNames([n]) == [n.name] + AttrNodeNames(n.attrs)
  {
    assert [n][1..] == [];
  }

  lemma {:induction false} NoGraphAttrNames(attrs: seq<Attribute>)
    requires forall k :: 0 <= k < |attrs| ==> !attrs[k].value.GraphAttr?
    ensures AttrNodeNames(attrs) == []
    decreases |attrs|
  {
    if |attrs| > 0 {
      NoGraphAttrNames(attrs[1..]);
    }
  }

  /** A node without subgraphs contributes its own name only. */
  lemma PlainNodeNames(n: Node)
    requires forall k :: 0 <= k < |n.attrs| ==> !n.attrs[k].value.GraphAttr?
    ensures NodeNames([n]) == [n.name]
  {
    NodeNamesOne(n);
    NoGraphAttrNames(n.attrs);
  }

  lemma WindowOne(prefix: string, id: nat)
    ensures Window([Fresh(prefix, id)], id, id + 1)
  {
  }

  /** Two windows over disjoint counter ranges join into one. */
  lemma WindowJoin(a: seq<Name>, b: seq<Name>, la: nat, ha: nat, lb: nat, hb: nat)
    requires Window(a, la, ha) && Window(b, lb, hb)
    requires la <= ha && lb <= hb && (ha <= lb || hb <= la)
    ensures Window(a + b, if la < lb then la else lb, if ha < hb then hb else ha)
  {
    forall x | x in a ensures x !in b {
      assert x.Fresh? && la <= x.id < ha;
    }
    DistinctConcat(a, b);
    var lo, hi := if la < lb then la else lb, if ha < hb then hb else ha;
    forall x | x in a + b ensures x.Fresh? && lo <= x.id < hi {
      assert x in a || x in b;
    }
  }

  /** The three nodes of a branch graph. */
  lemma BranchNames(input: Name, dtype: ElemType, shape: Shape, c: nat)
    ensures NodeNames(BranchGraph(input, dtype, shape, c).nodes) == [Fresh("Gather", c), Fresh("Squeeze", c + 1), Fresh("Identity", c + 2)]
    ensures Window(NodeNames(BranchGraph(input, dtype, shape, c).nodes), c, c + 3)
  {
    var ns := BranchGraph(input, dtype, shape, c).nodes;
    assert ns == [ns[0]] + [ns[1]] + [ns[2]];
    NodeNamesAppend([ns[0]] + [ns[1]], [ns[2]]);
    NodeNamesAppend([ns[0]], [ns[1]]);
    PlainNodeNames(ns[0]);
    PlainNodeNames(ns[1]);
    PlainNodeNames(ns[2]);
  }

  /** The If node and its two branch graphs draw seven distinct names. */
  lemma IfNames(info: TypeInfo, node: SelectNode, condName: Name, c: nat)
    requires IfOp(info, node, condName, c).result.Success?
    ensures Window(NodeNames([IfOp(info, node, condName, c).result.value.0]), c, c + 7)
  {
    IfOpNode(info, node, condName, c);
    var n := IfOp(info, node, condName, c).result.value.0;
    var shape := GetHiddenSizeBestEffort(info, node).value;
    var thenG := BranchGraph(node.inputs[1], info.GetDtype(node.inputs[1]), shape, c);
    var elseG := BranchGraph(node.inputs[2], info.GetDtype(node.inputs[2]), shape, c + 3);
    NodeNamesOne(n);
    assert n.attrs[1..] == [Attribute("else_branch", GraphAttr(elseG))];
    assert n.attrs[1..][1..] == [];
    assert AttrNodeNames(n.attrs) == NodeNames(thenG.nodes) + (NodeNames(elseG.nodes) + []);
    BranchNames(node.inputs[1], info.GetDtype(node.inputs[1]), shape, c);
    BranchNames(node.inputs[2], info.GetDtype(node.inputs[2]), shape, c + 3);
    WindowJoin(NodeNames(thenG.nodes), NodeNames(elseG.nodes), c, c + 3, c + 3, c + 6);
    assert NodeNames(elseG.nodes) + [] == NodeNames(elseG.nodes);
    WindowOne("If", c + 6);
    WindowJoin([n.name], AttrNodeNames(n.attrs), c + 6, c + 7, c, c + 6);
  }

  /** Six nodes named Gather, Squeeze, (the If), and three Identities,
      drawn in that order, hold twelve distinct names. */
  lemma BodyNodeNames(ns: seq<Node>, c: nat)
    requires |ns| == 6
    requires ns[0].name == Fresh("Gather", c) && ns[0].attrs == []
    requires ns[1].name == Fresh("Squeeze", c + 1) && ns[1].attrs == [Axes0]
    requires Window(NodeNames([ns[2]]), c + 2, c + 9)
    requires ns[3].name == Fresh("Identity", c + 9) && ns[3].attrs == []
    requires ns[4].name == Fresh("Identity", c + 10) && ns[4].attrs == []
    requires ns[5].name == Fresh("Identity", c + 11) && ns[5].attrs == []
    ensures Window(NodeNames(ns), c, c + 12)
  {
    var head, tail := [ns[0]] + [ns[1]], [ns[3]] + [ns[4]] + [ns[5]];
    assert ns == head + [ns[2]] + tail;
    NodeNamesAppend(head + [ns[2]], tail);
    NodeNamesAppend(head, [ns[2]]);
    NodeNamesAppend([ns[0]], [ns[1]]);
    NodeNamesAppend([ns[3]] + [ns[4]], [ns[5]]);
    NodeNamesAppend([ns[3]], [ns[4]]);
    PlainNodeNames(ns[0]);
    PlainNodeNames(ns[1]);
    PlainNodeNames(ns[3]);
    PlainNodeNames(ns[4]);
    PlainNodeNames(ns[5]);
    var g, q := Fresh("Gather", c), Fresh("Squeeze", c + 1);
    var i0, i1, i2 := Fresh("Identity", c + 9), Fresh("Identity", c + 10), Fresh("Identity", c + 11);
    assert NodeNames(head) == [g, q];
    assert NodeNames(tail) == [i0, i1, i2];
    WindowOne("Gather", c);
    WindowOne("Squeeze", c + 1);
    WindowJoin([g], [q], c, c + 1, c + 1, c + 2);
    assert [g] + [q] == [g, q];
    WindowJoin([g, q], NodeNames([ns[2]]), c, c + 2, c + 2, c + 9);
    WindowOne("Identity", c + 9);
    WindowOne("Identity", c + 10);
    WindowOne("Identity", c + 11);
    WindowJoin([i0], [i1], c + 9, c + 10, c + 10, c + 11);
    assert [i0] + [i1] == [i0, i1];
    WindowJoin([i0, i1], [i2], c + 9, c + 11, c + 11, c + 12);
    assert [i0, i1] + [i2] == [i0, i1, i2];
    WindowJoin([g, q] + NodeNames([ns[2]]), [i0, i1, i2], c, c + 9, c + 9, c + 12);
  }

  /** The node list of the loop body draws twelve distinct names. */
  lemma BodyNames(info: TypeInfo, node: SelectNode, condId: Name, dtype: ElemType, c: nat)
    requires LoopBody(info, node, condId, dtype, c).result.Success?
    ensures Window(NodeNames(LoopBody(info, node, condId, dtype, c).result.value.nodes), c, c + 12)
  {
    LoopBodyGraph(info, node, condId, dtype, c);
    IfNames(info, node, BodyCondName(c), c + 2);
    BodyNodeNames(LoopBody(info, node, condId, dtype, c).result.value.nodes, c);
  }

  /** A Loop node contributes its own name and its body's node names. */
  lemma LoopNodeNames(n: Node, body: Graph)
    requires n.attrs == [Attribute("body", GraphAttr(body))]
    ensures NodeNames([n]) == [n.name] + NodeNames(body.nodes)
  {
    NodeNamesOne(n);
    assert n.attrs[1..] == [];
    assert AttrNodeNames(n.attrs) == NodeNames(body.nodes) + [];
  }

  /** Five nodes named Size, condition, fake_var, loop_gather_indices and
      the Loop around a body drawn from `[c + 5, c + 17)`, followed by one
      node carrying a name of its own: the first five hold seventeen
      distinct registry names. */
  lemma TopNodeNames(ns: seq<Node>, c: nat, body: Graph, last: Name)
    requires |ns| == 6
    requires ns[0].name == Fresh("Size", c)
    requires ns[1].name == Fresh("condition", c + 1)
    requires ns[2].name == Fresh("fake_var", c + 2)
    requires ns[3].name == Fresh("loop_gather_indices", c + 3)
    requires forall j, k | 0 <= j <= 3 && 0 <= k < |ns[j].attrs| :: !ns[j].attrs[k].value.GraphAttr?
    requires ns[4].name == Fresh("loop", c + 4) && ns[4].attrs == [Attribute("body", GraphAttr(body))]
    requires Window(NodeNames(body.nodes), c + 5, c + 17)
    requires ns[5].name == last && ns[5].attrs == []
    ensures NodeNames(ns) == NodeNames(ns[..5]) + [last]
    ensures Window(NodeNames(ns[..5]), c, c + 17)
  {
    assert ns == ns[..5] + [ns[5]];
    NodeNamesAppend(ns[..5], [ns[5]]);
    PlainNodeNames(ns[5]);
    var s0, s1, s2, s3 := Fresh("Size", c), Fresh("condition", c + 1), Fresh("fake_var", c + 2), Fresh("loop_gather_indices", c + 3);
    assert ns[..5] == [ns[0]] + [ns[1]] + [ns[2]] + [ns[3]] + [ns[4]];
    NodeNamesAppend([ns[0]] + [ns[1]] + [ns[2]] + [ns[3]], [ns[4]]);
    NodeNamesAppend([ns[0]] + [ns[1]] + [ns[2]], [ns[3]]);
    NodeNamesAppend([ns[0]] + [ns[1]], [ns[2]]);
    NodeNamesAppend([ns[0]], [ns[1]]);
    PlainNodeNames(ns[0]);
    PlainNodeNames(ns[1]);
    PlainNodeNames(ns[2]);
    PlainNodeNames(ns[3]);
    LoopNodeNames(ns[4], body);
    WindowOne("Size", c);
    WindowOne("condition", c + 1);
    WindowOne("fake_var", c + 2);
    WindowOne("loop_gather_indices", c + 3);
    WindowOne("loop", c + 4);
    WindowJoin([s0], [s1], c, c + 1, c + 1, c + 2);
    assert [s0] + [s1] == [s0, s1];
    WindowJoin([s0, s1], [s2], c, c + 2, c + 2, c + 3);
    assert [s0, s1] + [s2] == [s0, s1, s2];
    WindowJoin([s0, s1, s2], [s3], c, c + 3, c + 3, c + 4);
    assert [s0, s1, s2] + [s3] == [s0, s1, s2, s3];
    WindowJoin([ns[4].name], NodeNames(body.nodes), c + 4, c + 5, c + 5, c + 17);
    WindowJoin([s0, s1, s2, s3], NodeNames([ns[4]]), c, c + 4, c + 4, c + 17);
    assert NodeNames(ns[..5]) == [s0, s1, s2, s3] + NodeNames([ns[4]]);
  }

  /**
   * Node names of `select_op8`'s result, subgraphs included: seventeen
   * distinct registry names drawn during the rewrite, followed by the
   * original node's name on the final Identity; when the original name
   * predates the rewrite, all eighteen are distinct.
   */
  lemma SelectLoweringNames(info: TypeInfo, node: SelectNode, c: nat)
    requires SelectLowering(info, node, c).result.Success?
    ensures SelectLowering(info, node, c).next == c + 17
    ensures var nodes := SelectLowering(info, node, c).result.value;
      && NodeNames(nodes) == NodeNames(nodes[..5]) + [node.name]
      && Window(NodeNames(nodes[..5]), c, c + 17)
      && (Predates(node.name, c) ==> Distinct(NodeNames(nodes)))
  {
    SelectLoweringOrder(info, node, c);
    var dtype := info.GetDtype(node.inputs[1]);
    LoopOpNodes(info, node, PortName(Fresh("Size", c), 0), dtype, c + 1);
    var body := LoopBody(info, node, node.inputs[0], dtype, c + 5);
    BodyNames(info, node, node.inputs[0], dtype, c + 5);
    var nodes := SelectLowering(info, node, c).result.value;
    TopNodeNames(nodes, c, body.result.value, node.name);
    if Predates(node.name, c) {
      var drawn := NodeNames(nodes[..5]);
      assert node.name !in drawn;
      DistinctConcat(drawn, [node.name]);
    }
  }

  /** A name that predates the counter value `c` is none of the names
      drawn from `c` on. */
  lemma PredatesNotDrawn(n: Name, c: nat, s: seq<Name>, lo: nat, hi: nat)
    requires Predates(n, c) && FreshIn(s, lo, hi) && c <= lo
    ensures n !in s
  {
  }

  /** Names drawn in two consecutive counter windows, each followed by a
      distinct name older than both, are disjoint. */
  lemma WindowsApart(a: seq<Name>, b: seq<Name>, n1: Name, n2: Name, c1: nat, c2: nat)
    requires Window(a, c1, c1 + 17) && Window(b, c2, c2 + 17) && c1 + 17 <= c2
    requires Predates(n1, c1) && Predates(n2, c1) && n1 != n2
    ensures forall x | x in a + [n1] :: x !in b + [n2]
  {
    PredatesNotDrawn(n1, c1, a, c1, c1 + 17);
    PredatesNotDrawn(n1, c1, b, c2, c2 + 17);
    PredatesNotDrawn(n2, c1, a, c1, c1 + 17);
    forall x | x in a ensures x !in b {
      assert x.id < c1 + 17;
    }
  }

  /**
   * Two Select rewrites run one after the other on the same registry, on
   * differently named nodes that both existed before the first one, share no
   * node name.
   */
  lemma SuccessiveRewritesDisjoint(info1: TypeInfo, node1: SelectNode, c1: nat,
                                   info2: TypeInfo, node2: SelectNode, c2: nat)
    requires SelectLowering(info1, node1, c1).result.Success?
    requires SelectLowering(info2, node2, c2).result.Success?
    requires SelectLowering(info1, node1, c1).next <= c2
    requires Predates(node1.name, c1) && Predates(node2.name, c1) && node1.name != node2.name
    ensures forall x | x in NodeNames(SelectLowering(info1, node1, c1).result.value) ::
              x !in NodeNames(SelectLowering(info2, node2, c2).result.value)
  {
    SelectLoweringNames(info1, node1, c1);
    SelectLoweringNames(info2, node2, c2);
    var a := SelectLowering(info1, node1, c1).result.value;
    var b := SelectLowering(info2, node2, c2).result.value;
    WindowsApart(NodeNames(a[..5]), NodeNames(b[..5]), node1.name, node2.name, c1, c2);
  }
}

=== FILE: lowering_scopes.dfy ===
/**
 * Structural facts about what the Select rewrite emits: every node reads
 * only names in scope (the enclosing graphs, the subgraph's formal inputs,
 * earlier outputs), never redefines a visible name, every subgraph's
 * declared outputs are defined inside it, and the node names drawn from the
 * registry are pairwise distinct and confined to the counter window the
 * rewrite used, so that rewrites run one after another never clash.
 */
module LoweringScopes {

  import opened OnnxIr
  import opened Scopes
  import opened GraphContext
  import opened Lowering

  /** Every name visible so far predates the registry counter `c`. */
  predicate AllPredate(vis: set<Name>, c: nat)
  {
    forall x {:trigger Predates(x, c)} | x in vis :: Predates(x, c)
  }

  /** None of the fixed names that the loop body and the branch graphs
      define or declare is already in use. */
  predicate SubgraphNamesUnused(vis: set<Name>)
  {
    && Plain("i") !in vis && Plain("cond") !in vis && Plain("fake_var") !in vis && Plain("y") !in vis
    && Plain("output") !in vis && Plain("cond_output") !in vis && Plain("fake_var_output") !in vis
  }

  lemma {:induction false} PredatesLater(x: Name, c: nat, d: nat)
    requires Predates(x, c) && c <= d
    ensures Predates(x, d)
  {
    match x
    case Plain(_) =>
    case Fresh(_, _) =>
    case Port(m, _) => PredatesLater(m, c, d);
  }

  lemma AllPredateGrow(vis: set<Name>, c: nat, d: nat, extra: set<Name>)
    requires AllPredate(vis, c) && c <= d
    requires forall x | x in extra :: Predates(x, d)
    ensures AllPredate(vis + extra, d)
  {
    forall x | x in vis + extra ensures Predates(x, d) {
      if x in vis { PredatesLater(x, c, d); }
    }
  }

  /** A fresh port drawn at or after `c` is not yet visible. */
  lemma FreshPortUnseen(vis: set<Name>, c: nat, prefix: string, id: nat, slot: nat)
    requires AllPredate(vis, c) && c <= id
    ensures PortName(Fresh(prefix, id), slot) !in vis
    ensures Fresh(prefix, id) !in vis
  {
    assert !Predates(Fresh(prefix, id), c);
    assert !Predates(PortName(Fresh(prefix, id), slot), c);
  }

  lemma OutputsOne(o: Name)
    ensures (set x | x in [o]) == {o}
  {
    assert forall x :: x in [o] <==> x == o;
  }

  lemma NoGraphAttrs(attrs: seq<Attribute>, vis: set<Name>)
    requires forall k :: 0 <= k < |attrs| ==> !attrs[k].value.GraphAttr?
    ensures AttrsScoped(attrs, vis)
    ensures AttrNodeNames(attrs) == []
    decreases attrs
  {
    if |attrs| > 0 {
      NoGraphAttrs(attrs[1..], vis);
    }
  }

  /** A plain node: reads visible names, writes the one new name `o`. */
  lemma SimpleNodeScoped(n: Node, vis: set<Name>, o: Name)
    requires forall x | x in n.inputs :: x in vis
    requires n.outputs == [o] && o !in vis
    requires forall k :: 0 <= k < |n.attrs| ==> !n.attrs[k].value.GraphAttr?
    ensures NodeScoped(n, vis)
  {
    NoGraphAttrs(n.attrs, vis);
  }

  /** Unfold `NodesScoped` at a node with one output. */
  lemma ScopedStep(nodes: seq<Node>, k: nat, vis: set<Name>, o: Name)
    requires k < |nodes| && nodes[k].outputs == [o]
    requires NodeScoped(nodes[k], vis)
    requires NodesScoped(nodes[k + 1..], vis + {o})
    ensures NodesScoped(nodes[k..], vis)
  {
    OutputsOne(o);
    assert nodes[k..][1..] == nodes[k + 1..];
  }

  /** Unfold `NodesScoped` at a node with any number of outputs. */
  lemma ScopedStepN(nodes: seq<Node>, k: nat, vis: set<Name>, outs: set<Name>)
    requires k < |nodes| && outs == set o | o in nodes[k].outputs
    requires NodeScoped(nodes[k], vis)
    requires NodesScoped(nodes[k + 1..], vis + outs)
    ensures NodesScoped(nodes[k..], vis)
  {
    assert nodes[k..][1..] == nodes[k + 1..];
  }

  lemma OutputsTwo(a: Name, b: Name)
    ensures (set x | x in [a, b]) == {a, b}
  {
    assert forall x :: x in [a, b] <==> x == a || x == b;
  }

  /** `nodes[k]` is an attribute-free single-input single-output node. */
  predicate Pipe(nodes: seq<Node>, k: nat, a: Name, b: Name)
  {
    k < |nodes| && nodes[k].inputs == [a] && nodes[k].outputs == [b] && nodes[k].attrs == []
  }

  /** The Gather, Squeeze, Identity chain of a branch graph. */
  lemma BranchNodesScoped(nodes: seq<Node>, input: Name, c: nat, vis: set<Name>)
    requires |nodes| == 3
    requires nodes[0].inputs == [input, Plain("i")] && nodes[0].outputs == [PortName(Fresh("Gather", c), 0)]
    requires nodes[0].attrs == []
    requires nodes[1].inputs == [PortName(Fresh("Gather", c), 0)] && nodes[1].outputs == [PortName(Fresh("Squeeze", c + 1), 0)]
    requires nodes[1].attrs == [Axes0]
    requires Pipe(nodes, 2, PortName(Fresh("Squeeze", c + 1), 0), Plain("y"))
    requires PortName(Fresh("Gather", c), 0) !in vis && PortName(Fresh("Squeeze", c + 1), 0) !in vis
    requires input in vis && Plain("i") in vis && Plain("y") !in vis
    ensures NodesScoped(nodes, vis)
  {
    var gp, sp := PortName(Fresh("Gather", c), 0), PortName(Fresh("Squeeze", c + 1), 0);
    var v1, v2 := vis + {gp}, vis + {gp} + {sp};
    assert NodesScoped(nodes[3..], v2 + {Plain("y")});
    SimpleNodeScoped(nodes[2], v2, Plain("y"));
    ScopedStep(nodes, 2, v2, Plain("y"));
    SimpleNodeScoped(nodes[1], v1, sp);
    ScopedStep(nodes, 1, v1, sp);
    SimpleNodeScoped(nodes[0], vis, gp);
    ScopedStep(nodes, 0, vis, gp);
    assert nodes[0..] == nodes;
  }

  /**
   * A branch graph of the If (`create_body_graph_for_if_branch`) is a
   * well-formed scope: without formal inputs, it reads its operand and the
   * iteration number `i` from the enclosing graphs and defines its output
   * `y` itself.
   */
  lemma BranchGraphScoped(input: Name, dtype: ElemType, shape: Shape, c: nat, vis: set<Name>)
    requires AllPredate(vis, c)
    requires input in vis && Plain("i") in vis && Plain("y") !in vis
    ensures GraphScoped(BranchGraph(input, dtype, shape, c), vis)
    ensures Names(BranchGraph(input, dtype, shape, c).outputs) == [Plain("y")]
    ensures Plain("y") in Produced(BranchGraph(input, dtype, shape, c).nodes)
  {
    var g := BranchGraph(input, dtype, shape, c);
    FreshPortUnseen(vis, c, "Gather", c, 0);
    FreshPortUnseen(vis, c, "Squeeze", c + 1, 0);
    BranchNodesScoped(g.nodes, input, c, vis);
    assert Names(g.inputs) == [];
    assert (set x | x in Names(g.inputs)) == {};
    assert vis + (set x | x in Names(g.inputs)) == vis;
    assert Plain("y") in g.nodes[2].outputs;
  }

  /** A node with a then- and an else-branch graph. */
  lemma BranchNodeScoped(n: Node, vis: set<Name>, condName: Name, out: Name, thenG: Graph, elseG: Graph)
    requires n.inputs == [condName] && n.outputs == [out]
    requires n.attrs == [Attribute("then_branch", GraphAttr(thenG)), Attribute("else_branch", GraphAttr(elseG))]
    requires condName in vis && out !in vis
    requires GraphScoped(thenG, vis) && GraphScoped(elseG, vis)
    ensures NodeScoped(n, vis)
  {
    assert n.attrs[1..] == [Attribute("else_branch", GraphAttr(elseG))];
    assert n.attrs[1..][1..] == [];
    assert AttrsScoped(n.attrs[1..], vis);
  }

  /**
   * The If node of `create_if_op` is well scoped: it reads the scalar
   * condition, defines one new name, and both branch graphs are well-formed
   * scopes inside the scope the If sits in.
   */
  lemma IfOpScoped(info: TypeInfo, node: SelectNode, condName: Name, c: nat, vis: set<Name>)
    requires IfOp(info, node, condName, c).result.Success?
    requires AllPredate(vis, c)
    requires forall k | 0 <= k < |node.inputs| :: node.inputs[k] in vis
    requires condName in vis && Plain("i") in vis && Plain("y") !in vis
    ensures NodeScoped(IfOp(info, node, condName, c).result.value.0, vis)
  {
    IfOpNode(info, node, condName, c);
    var n := IfOp(info, node, condName, c).result.value.0;
    var shape := GetHiddenSizeBestEffort(info, node).value;
    var thenG := BranchGraph(node.inputs[1], info.GetDtype(node.inputs[1]), shape, c);
    var elseG := BranchGraph(node.inputs[2], info.GetDtype(node.inputs[2]), shape, c + 3);
    BranchGraphScoped(node.inputs[1], info.GetDtype(node.inputs[1]), shape, c, vis);
    AllPredateGrow(vis, c, c + 3, {});
    assert vis + {} == vis;
    BranchGraphScoped(node.inputs[2], info.GetDtype(node.inputs[2]), shape, c + 3, vis);
    FreshPortUnseen(vis, c, "If", c + 6, 0);
    BranchNodeScoped(n, vis, condName, PortName(Fresh("If", c + 6), 0), thenG, elseG);
  }

  /** The three Identities closing the loop body. */
  lemma BodyTailScoped(nodes: seq<Node>, v3: set<Name>, ifOut: Name)
    requires |nodes| == 6
    requires Pipe(nodes, 3, ifOut, Plain("output"))
    requires Pipe(nodes, 4, Plain("cond"), Plain("cond_output"))
    requires Pipe(nodes, 5, Plain("fake_var"), Plain("fake_var_output"))
    requires ifOut in v3 && Plain("cond") in v3 && Plain("fake_var") in v3
    requires Plain("output") !in v3 && Plain("cond_output") !in v3 && Plain("fake_var_output") !in v3
    ensures NodesScoped(nodes[3..], v3)
  {
    var output, condOut, fakeOut := Plain("output"), Plain("cond_output"), Plain("fake_var_output");
    var v4 := v3 + {output};
    var v5 := v4 + {condOut};
    assert NodesScoped(nodes[6..], v5 + {fakeOut});
    SimpleNodeScoped(nodes[5], v5, fakeOut);
    ScopedStep(nodes, 5, v5, fakeOut);
    SimpleNodeScoped(nodes[4], v4, condOut);
    ScopedStep(nodes, 4, v4, condOut);
    SimpleNodeScoped(nodes[3], v3, output);
    ScopedStep(nodes, 3, v3, output);
  }

  /** The Gather and Squeeze opening the loop body, ahead of the If. */
  lemma BodyHeadScoped(nodes: seq<Node>, v0: set<Name>, condId: Name, c: nat, ifOut: Name)
    requires |nodes| == 6
    requires nodes[0] == Node(Gather, [condId, Plain("i")], [PortName(Fresh("Gather", c), 0)], Fresh("Gather", c), [])
    requires nodes[1] == Node(Squeeze, [PortName(Fresh("Gather", c), 0)], [BodyCondName(c)], Fresh("Squeeze", c + 1), [Axes0])
    requires nodes[2].outputs == [ifOut]
    requires PortName(Fresh("Gather", c), 0) !in v0 && BodyCondName(c) !in v0
    requires condId in v0 && Plain("i") in v0
    requires NodeScoped(nodes[2], v0 + {PortName(Fresh("Gather", c), 0), BodyCondName(c)})
    requires NodesScoped(nodes[3..], v0 + {PortName(Fresh("Gather", c), 0), BodyCondName(c)} + {ifOut})
    ensures NodesScoped(nodes, v0)
  {
    var gp, sp := PortName(Fresh("Gather", c), 0), BodyCondName(c);
    var v1 := v0 + {gp};
    var v2 := v1 + {sp};
    assert v2 == v0 + {gp, sp};
    ScopedStep(nodes, 2, v2, ifOut);
    SimpleNodeScoped(nodes[1], v1, sp);
    ScopedStep(nodes, 1, v1, sp);
    SimpleNodeScoped(nodes[0], v0, gp);
    ScopedStep(nodes, 0, v0, gp);
    assert nodes[0..] == nodes;
  }

  /** The wiring of the loop body's six nodes that scoping depends on. */
  predicate BodyWiring(nodes: seq<Node>, c: nat, condId: Name, ifNode: Node, ifOut: Name)
  {
    && |nodes| == 6
    && nodes[0] == Node(Gather, [condId, Plain("i")], [PortName(Fresh("Gather", c), 0)], Fresh("Gather", c), [])
    && nodes[1] == Node(Squeeze, [PortName(Fresh("Gather", c), 0)], [BodyCondName(c)], Fresh("Squeeze", c + 1), [Axes0])
    && nodes[2] == ifNode && ifNode.outputs == [ifOut]
    && ifOut == PortName(Fresh("If", c + 8), 0)
    && Pipe(nodes, 3, ifOut, Plain("output"))
    && Pipe(nodes, 4, Plain("cond"), Plain("cond_output"))
    && Pipe(nodes, 5, Plain("fake_var"), Plain("fake_var_output"))
  }

  /** The wiring of `create_loop_body_graph`'s nodes around the If. */
  lemma LoopBodyWiring(info: TypeInfo, node: SelectNode, condId: Name, dtype: ElemType, c: nat)
    requires LoopBody(info, node, condId, dtype, c).result.Success?
    ensures IfOp(info, node, BodyCondName(c), c + 2).result.Success?
    ensures BodyWiring(LoopBody(info, node, condId, dtype, c).result.value.nodes, c, condId,
                       IfOp(info, node, BodyCondName(c), c + 2).result.value.0,
                       IfOp(info, node, BodyCondName(c), c + 2).result.value.1)
  {
    LoopBodyGraph(info, node, condId, dtype, c);
  }

  /** The nodes of the loop body, in the scope its formals open. */
  lemma BodyNodesScoped(info: TypeInfo, node: SelectNode, condId: Name, dtype: ElemType, c: nat, v0: set<Name>)
    requires LoopBody(info, node, condId, dtype, c).result.Success?
    requires AllPredate(v0, c)
    requires condId in v0 && forall k | 0 <= k < |node.inputs| :: node.inputs[k] in v0
    requires Plain("i") in v0 && Plain("cond") in v0 && Plain("fake_var") in v0
    requires Plain("y") !in v0 && Plain("output") !in v0 && Plain("cond_output") !in v0 && Plain("fake_var_output") !in v0
    ensures NodesScoped(LoopBody(info, node, condId, dtype, c).result.value.nodes, v0)
  {
    LoopBodyWiring(info, node, condId, dtype, c);
    var nodes := LoopBody(info, node, condId, dtype, c).result.value.nodes;
    var (ifNode, ifOut) := IfOp(info, node, BodyCondName(c), c + 2).result.value;
    var gp, sp := PortName(Fresh("Gather", c), 0), BodyCondName(c);
    FreshPortUnseen(v0, c, "Gather", c, 0);
    FreshPortUnseen(v0, c, "Squeeze", c + 1, 0);
    var v2 := v0 + {gp, sp};
    AllPredateGrow(v0, c, c + 2, {gp, sp});
    IfOpScoped(info, node, sp, c + 2, v2);
    FreshPortUnseen(v2, c + 2, "If", c + 8, 0);
    BodyTailScoped(nodes, v2 + {ifOut}, ifOut);
    BodyHeadScoped(nodes, v0, condId, c, ifOut);
  }

  /** A graph with the loop body's signature whose nodes are well scoped
      once its formals are in scope, and whose last three nodes define the
      declared outputs, is a well-formed scope. */
  lemma BodySignatureScoped(g: Graph, outer: set<Name>, dtype: ElemType, shape: Shape)
    requires g.inputs == BodyInputs && g.outputs == BodyOutputs(dtype, shape)
    requires Plain("i") !in outer && Plain("cond") !in outer && Plain("fake_var") !in outer
    requires NodesScoped(g.nodes, outer + {Plain("i"), Plain("cond"), Plain("fake_var")})
    requires |g.nodes| == 6
    requires g.nodes[3].outputs == [Plain("output")]
    requires g.nodes[4].outputs == [Plain("cond_output")]
    requires g.nodes[5].outputs == [Plain("fake_var_output")]
    ensures GraphScoped(g, outer)
    ensures forall o | o in Names(g.outputs) :: o in Produced(g.nodes)
  {
    var i, cond, fake := Plain("i"), Plain("cond"), Plain("fake_var");
    var formals := Names(g.inputs);
    assert formals == [i, cond, fake];
    assert (set x | x in formals) == {i, cond, fake};
    var output, condOut, fakeOut := Plain("output"), Plain("cond_output"), Plain("fake_var_output");
    assert Names(g.outputs) == [condOut, fakeOut, output];
    assert output in g.nodes[3].outputs && condOut in g.nodes[4].outputs && fakeOut in g.nodes[5].outputs;
  }

  /**
   * The loop body of `create_loop_body_graph` is a well-formed scope: its
   * formal inputs `i`, `cond`, `fake_var` are new, each node reads only what
   * is visible and defines new names, and each declared output (the flag,
   * the placeholder and the selected row) is defined by a node of the body.
   */
  lemma LoopBodyScoped(info: TypeInfo, node: SelectNode, condId: Name, dtype: ElemType, c: nat, outer: set<Name>)
    requires LoopBody(info, node, condId, dtype, c).result.Success?
    requires AllPredate(outer, c)
    requires condId in outer && forall k | 0 <= k < |node.inputs| :: node.inputs[k] in outer
    requires SubgraphNamesUnused(outer)
    ensures GraphScoped(LoopBody(info, node, condId, dtype, c).result.value, outer)
    ensures forall o | o in Names(LoopBody(info, node, condId, dtype, c).result.value.outputs) ::
      o in Produced(LoopBody(info, node, condId, dtype, c).result.value.nodes)
  {
    LoopBodyGraph(info, node, condId, dtype, c);
    var v0 := outer + {Plain("i"), Plain("cond"), Plain("fake_var")};
    AllPredateGrow(outer, c, c, {Plain("i"), Plain("cond"), Plain("fake_var")});
    BodyNodesScoped(info, node, condId, dtype, c, v0);
    BodySignatureScoped(LoopBody(info, node, condId, dtype, c).result.value, outer, dtype,
                        GetHiddenSizeBestEffort(info, node).value);
  }

  /** The Loop node and the final Identity of `select_op8`. */
  lemma SelectTailScoped(nodes: seq<Node>, v4: set<Name>, body: Graph, loopName: Name, out: Name)
    requires |nodes| == 6
    requires nodes[4].outputs == [PortName(loopName, 0), PortName(loopName, 1)]
    requires nodes[4].attrs == [Attribute("body", GraphAttr(body))]
    requires forall x | x in nodes[4].inputs :: x in v4
    requires GraphScoped(body, v4)
    requires PortName(loopName, 0) !in v4 && PortName(loopName, 1) !in v4
    requires Pipe(nodes, 5, PortName(loopName, 1), out)
    requires out !in v4 && out != PortName(loopName, 0) && out != PortName(loopName, 1)
    ensures NodesScoped(nodes[4..], v4)
  {
    var loop0, loop1 := PortName(loopName, 0), PortName(loopName, 1);
    assert nodes[4].attrs[1..] == [];
    assert AttrsScoped(nodes[4].attrs, v4);
    assert NodeScoped(nodes[4], v4);
    OutputsTwo(loop0, loop1);
    var v5 := v4 + {loop0, loop1};
    assert NodesScoped(nodes[6..], v5 + {out});
    SimpleNodeScoped(nodes[5], v5, out);
    ScopedStep(nodes, 5, v5, out);
    ScopedStepN(nodes, 4, v4, {loop0, loop1});
  }

  /** The four nodes of `select_op8` ahead of the Loop. */
  lemma SelectHeadScoped(nodes: seq<Node>, vis: set<Name>, c: nat, condId: Name)
    requires |nodes| == 6
    requires Pipe(nodes, 0, condId, PortName(Fresh("Size", c), 0))
    requires nodes[1].inputs == [] && nodes[1].outputs == [Fresh("condition", c + 1)]
    requires nodes[2].inputs == [] && nodes[2].outputs == [Fresh("fake_var", c + 2)]
    requires nodes[3].inputs == [PortName(Fresh("Size", c), 0)]
    requires nodes[3].outputs == [PortName(Fresh("loop_gather_indices", c + 3), 0)]
    requires forall j, k | 1 <= j <= 3 && 0 <= k < |nodes[j].attrs| :: !nodes[j].attrs[k].value.GraphAttr?
    requires PortName(Fresh("Size", c), 0) !in vis && Fresh("condition", c + 1) !in vis
    requires Fresh("fake_var", c + 2) !in vis && PortName(Fresh("loop_gather_indices", c + 3), 0) !in vis
    requires condId in vis
    requires NodesScoped(nodes[4..], vis + {PortName(Fresh("Size", c), 0), Fresh("condition", c + 1),
                                          Fresh("fake_var", c + 2), PortName(Fresh("loop_gather_indices", c + 3), 0)})
    ensures NodesScoped(nodes, vis)
  {
    var sizeP := PortName(Fresh("Size", c), 0);
    var condN, fakeN := Fresh("condition", c + 1), Fresh("fake_var", c + 2);
    var tripP := PortName(Fresh("loop_gather_indices", c + 3), 0);
    var v1 := vis + {sizeP};
    var v2 := v1 + {condN};
    var v3 := v2 + {fakeN};
    assert v3 + {tripP} == vis + {sizeP, condN, fakeN, tripP};
    SimpleNodeScoped(nodes[3], v3, tripP);
    ScopedStep(nodes, 3, v3, tripP);
    SimpleNodeScoped(nodes[2], v2, fakeN);
    ScopedStep(nodes, 2, v2, fakeN);
    SimpleNodeScoped(nodes[1], v1, condN);
    ScopedStep(nodes, 1, v1, condN);
    SimpleNodeScoped(nodes[0], vis, sizeP);
    ScopedStep(nodes, 0, vis, sizeP);
    assert nodes[0..] == nodes;
  }

  /** The names `select_op8` defines at the top level, in order. */
  function TopNames(c: nat): seq<Name>
  {
    [PortName(Fresh("Size", c), 0), Fresh("condition", c + 1), Fresh("fake_var", c + 2),
     PortName(Fresh("loop_gather_indices", c + 3), 0),
     PortName(Fresh("loop", c + 4), 0), PortName(Fresh("loop", c + 4), 1)]
  }

  /** The top-level names drawn from the registry at `c` are new, and so is
      any name that predates `c`. */
  lemma TopNamesUnseen(vis: set<Name>, c: nat, out: Name)
    requires AllPredate(vis, c) && Predates(out, c)
    ensures forall k | 0 <= k < 6 :: TopNames(c)[k] !in vis && TopNames(c)[k] != out
  {
    var t := TopNames(c);
    forall k | 0 <= k < 6 ensures t[k] !in vis && t[k] != out {
      assert !Predates(Fresh("Size", c), c) && !Predates(Fresh("loop_gather_indices", c + 3), c);
      assert !Predates(Fresh("loop", c + 4), c);
      assert !Predates(t[k], c);
    }
  }

  /** The wiring of the six top-level nodes of `select_op8` that scoping
      depends on. */
  predicate TopWiring(nodes: seq<Node>, c: nat, condId: Name, body: Graph, out: Name)
  {
    && |nodes| == 6
    && Pipe(nodes, 0, condId, PortName(Fresh("Size", c), 0))
    && nodes[1].inputs == [] && nodes[1].outputs == [Fresh("condition", c + 1)]
    && nodes[2].inputs == [] && nodes[2].outputs == [Fresh("fake_var", c + 2)]
    && nodes[3].inputs == [PortName(Fresh("Size", c), 0)]
    && nodes[3].outputs == [PortName(Fresh("loop_gather_indices", c + 3), 0)]
    && (forall j, k | 1 <= j <= 3 && 0 <= k < |nodes[j].attrs| :: !nodes[j].attrs[k].value.GraphAttr?)
    && nodes[4].inputs == [PortName(Fresh("loop_gather_indices", c + 3), 0), Fresh("condition", c + 1), Fresh("fake_var", c + 2)]
    && nodes[4].outputs == [PortName(Fresh("loop", c + 4), 0), PortName(Fresh("loop", c + 4), 1)]
    && nodes[4].attrs == [Attribute("body", GraphAttr(body))]
    && Pipe(nodes, 5, PortName(Fresh("loop", c + 4), 1), out)
  }

  /** The six nodes of `select_op8`, given the Loop's body is a well-formed
      scope where the Loop sits. */
  lemma SelectNodesScoped(nodes: seq<Node>, vis: set<Name>, c: nat, condId: Name, body: Graph, out: Name)
    requires TopWiring(nodes, c, condId, body, out)
    requires condId in vis && out !in vis
    requires forall k | 0 <= k < 6 :: TopNames(c)[k] !in vis && TopNames(c)[k] != out
    requires GraphScoped(body, vis + {PortName(Fresh("Size", c), 0), Fresh("condition", c + 1),
                                      Fresh("fake_var", c + 2), PortName(Fresh("loop_gather_indices", c + 3), 0)})
    ensures NodesScoped(nodes, vis)
  {
    var t := TopNames(c);
    assert t[0] !in vis && t[1] !in vis && t[2] !in vis && t[3] !in vis && t[4] !in vis && t[5] !in vis;
    assert t[0] != out && t[1] != out && t[2] != out && t[3] != out && t[4] != out && t[5] != out;
    var v4 := vis + {t[0], t[1], t[2], t[3]};
    SelectTailScoped(nodes, v4, body, Fresh("loop", c + 4), out);
    SelectHeadScoped(nodes, vis, c, condId);
  }

  /** The wiring of `select_op8`'s node list, with the Loop's body. */
  lemma SelectLoweringWiring(info: TypeInfo, node: SelectNode, c: nat)
    requires SelectLowering(info, node, c).result.Success?
    ensures |node.inputs| >= 3
    ensures LoopBody(info, node, node.inputs[0], info.GetDtype(node.inputs[1]), c + 5).result.Success?
    ensures TopWiring(SelectLowering(info, node, c).result.value, c, node.inputs[0],
                      LoopBody(info, node, node.inputs[0], info.GetDtype(node.inputs[1]), c + 5).result.value,
                      PortName(node.name, 0))
  {
    SelectLoweringOrder(info, node, c);
    LoopOpNodes(info, node, PortName(Fresh("Size", c), 0), info.GetDtype(node.inputs[1]), c + 1);
  }

  /**
   * The node list of `select_op8` is well scoped in the graph it is spliced
   * into: run in order, each node reads only names already defined (the
   * Select's inputs and earlier outputs), no node redefines a visible name,
   * the Loop's body and the If's branches are well-formed scopes, and the
   * last node defines the original output name `port_name(node.name)`.
   */
  lemma SelectLoweringScoped(info: TypeInfo, node: SelectNode, c: nat, vis: set<Name>)
    requires SelectLowering(info, node, c).result.Success?
    requires AllPredate(vis, c) && Predates(node.name, c)
    requires forall k | 0 <= k < |node.inputs| :: node.inputs[k] in vis
    requires SubgraphNamesUnused(vis) && PortName(node.name, 0) !in vis
    ensures NodesScoped(SelectLowering(info, node, c).result.value, vis)
  {
    SelectLoweringWiring(info, node, c);
    var dtype := info.GetDtype(node.inputs[1]);
    var body := LoopBody(info, node, node.inputs[0], dtype, c + 5).result.value;
    var extra := {PortName(Fresh("Size", c), 0), Fresh("condition", c + 1), Fresh("fake_var", c + 2),
                  PortName(Fresh("loop_gather_indices", c + 3), 0)};
    AllPredateGrow(vis, c, c + 5, extra);
    LoopBodyScoped(info, node, node.inputs[0], dtype, c + 5, vis + extra);
    assert Predates(PortName(node.name, 0), c);
    TopNamesUnseen(vis, c, PortName(node.name, 0));
    SelectNodesScoped(SelectLowering(info, node, c).result.value, vis, c, node.inputs[0], body, PortName(node.name, 0));
  }
}

=== FILE: onnx_eval.dfy ===
/**
 * A small reference interpreter for the operators the Select lowering
 * emits, following their entries in the ONNX operator specification at
 * opset 8.  Tensors are nested sequences of rows; element values are opaque
 * (only moved, never computed).  A graph is evaluated in the scope of the
 * graph that contains it: subgraphs read the enclosing graph's values by
 * name, and only a subgraph's declared outputs flow back out.
 *
 * Anything outside the modelled subset (a missing name, a malformed
 * attribute, an index out of range, an arity mismatch) makes evaluation
 * fail with `None`.
 */
module OnnxEval {

  import opened Wrappers
  import opened OnnxIr

  /** A runtime value: a scalar, or a tensor given by its rows. */
  datatype Value = BoolVal(b: bool) | IntVal(i: int) | Atom(payload: int) | Tensor(items: seq<Value>)

  /** The values defined so far, by name. */
  type Scope = map<Name, Value>

  /** The loop-carried values and, per scan output, the rows so far. */
  datatype LoopState = LoopState(carried: seq<Value>, scans: seq<seq<Value>>)

  /** The values of `names`, when all of them are defined. */
  function Lookup(scope: Scope, names: seq<Name>): (r: Option<seq<Value>>)
    ensures r.Some? <==> forall j :: 0 <= j < |names| ==> names[j] in scope
    ensures r.Some? ==> |r.value| == |names| && forall j :: 0 <= j < |names| ==> r.value[j] == scope[names[j]]
  {
    if forall j :: 0 <= j < |names| ==> names[j] in scope
    then Some(seq(|names|, j requires 0 <= j < |names| => scope[names[j]]))
    else None
  }

  /** Define `names[j]` as `vals[j]`, left to right. */
  function Bind(scope: Scope, names: seq<Name>, vals: seq<Value>): Scope
    requires |names| == |vals|
    decreases |names|
  {
    if |names| == 0 then scope else Bind(scope[names[0] := vals[0]], names[1..], vals[1..])
  }

  /** The number of scalar elements of a value (`Size`). */
  function Count(v: Value): nat
    decreases v
  {
    match v
    case Tensor(items) => CountAll(items)
    case _ => 1
  }

  function CountAll(items: seq<Value>): nat
    decreases items
  {
    if |items| == 0 then 0 else Count(items[0]) + CountAll(items[1..])
  }

  /** The attribute `axes` is present and is `[0]`. */
  predicate HasAxes0(attrs: seq<Attribute>)
  {
    match FindAttr(attrs, "axes")
    case None => false
    case Some(k) => attrs[k].value == Ints([0])
  }

  /** The graph held by attribute `key`, if there is one. */
  function GraphOf(attrs: seq<Attribute>, key: string): Option<Graph>
  {
    match FindAttr(attrs, key)
    case None => None
    case Some(k) => if attrs[k].value.GraphAttr? then Some(attrs[k].value.graph) else None
  }

  /** The scalar held by a `Constant` node's `value` attribute. */
  function ConstantValue(attrs: seq<Attribute>): Option<Value>
  {
    match FindAttr(attrs, "value")
    case None => None
    case Some(k) =>
      match attrs[k].value
      case TensorAttr(t) =>
        if t.dims == [] && |t.vals| == 1 then
          (match t.vals[0]
           case BoolLit(b) => Some(BoolVal(b))
           case FloatLit(bits) => Some(Atom(bits)))
        else None
      case _ => None
  }

  /** `Gather` along axis 0 with a scalar index or a 1-D tensor of indices,
      every index within bounds. */
  function GatherRows(data: Value, indices: Value): Option<Value>
  {
    if !data.Tensor? then None
    else
      var rows := data.items;
      match indices
      case IntVal(j) => if 0 <= j < |rows| then Some(rows[j]) else None
      case Tensor(js) =>
        if forall m :: 0 <= m < |js| ==> js[m].IntVal? && 0 <= js[m].i < |rows|
        then Some(Tensor(seq(|js|, m requires 0 <= m < |js| => rows[js[m].i])))
        else None
      case _ => None
  }

  /** A `Loop` trip count: a non-negative integer, as a scalar or as a
      one-element tensor. */
  function TripCount(v: Value): Option<nat>
  {
    match v
    case IntVal(m) => if m >= 0 then Some(m) else None
    case Tensor(items) =>
      if |items| == 1 && items[0].IntVal? && items[0].i >= 0 then Some(items[0].i) else None
    case _ => None
  }

  /** The iteration number as the body declares it: a one-element tensor
      when its formal has rank 1, a scalar otherwise. */
  function IterationValue(formal: ValueInfo, k: nat): Value
  {
    if |formal.shape| == 1 then Tensor([IntVal(k)]) else IntVal(k)
  }

  /** Run a graph in `scope` and return its declared outputs. */
  function EvalGraph(g: Graph, scope: Scope): Option<seq<Value>>
    decreases g, 0
  {
    match RunNodes(g.nodes, 0, scope)
    case None => None
    case Some(s) => Lookup(s, Names(g.outputs))
  }

  /** Run `nodes[k..]` in order, each node defining its outputs. */
  function RunNodes(nodes: seq<Node>, k: nat, scope: Scope): Option<Scope>
    requires k <= |nodes|
    decreases nodes, |nodes| - k
  {
    if k == |nodes| then Some(scope)
    else
      match EvalNode(nodes[k], scope)
      case None => None
      case Some(vals) =>
        if |vals| != |nodes[k].outputs| then None
        else RunNodes(nodes, k + 1, Bind(scope, nodes[k].outputs, vals))
  }

  /** The output values of one node. */
  function EvalNode(n: Node, scope: Scope): Option<seq<Value>>
    decreases n, 1
  {
    match Lookup(scope, n.inputs)
    case None => None
    case Some(args) =>
      match n.op
      case Size => if |args| == 1 then Some([IntVal(Count(args[0]))]) else None
      case Identity => if |args| == 1 then Some([args[0]]) else None
      case Unsqueeze => if |args| == 1 && HasAxes0(n.attrs) then Some([Tensor([args[0]])]) else None
      case Squeeze =>
        if |args| == 1 && HasAxes0(n.attrs) && args[0].Tensor? && |args[0].items| == 1
        then Some([args[0].items[0]])
        else None
      case Gather =>
        if |args| != 2 then None
        else
          (match GatherRows(args[0], args[1])
           case None => None
           case Some(v) => Some([v]))
      case Constant =>
        if |args| != 0 then None
        else
          (match ConstantValue(n.attrs)
           case None => None
           case Some(v) => Some([v]))
      case If => if |args| == 1 && args[0].BoolVal? then EvalIf(n, args[0].b, scope) else None
      case Loop => EvalLoop(n, args, scope)
  }

  /** `If`: run the branch the condition picks, in the enclosing scope. */
  function EvalIf(n: Node, b: bool, scope: Scope): Option<seq<Value>>
    decreases n, 0
  {
    match GraphOf(n.attrs, if b then "then_branch" else "else_branch")
    case None => None
    case Some(g) =>
      match EvalGraph(g, scope)
      case None => None
      case Some(outs) => if |outs| == |n.outputs| then Some(outs) else None
  }

  /**
   * `Loop(M, cond, v_initial...)`: iterate the body while the iteration
   * number is below the trip count and the condition holds; the outputs are
   * the final loop-carried values followed by each scan output, its rows
   * stacked in iteration order.
   */
  function EvalLoop(n: Node, args: seq<Value>, scope: Scope): Option<seq<Value>>
    decreases n, 0
  {
    if |args| < 2 || !args[1].BoolVal? then None
    else
      match TripCount(args[0])
      case None => None
      case Some(trip) =>
        match GraphOf(n.attrs, "body")
        case None => None
        case Some(body) =>
          var carried := args[2..];
          if |body.inputs| != 2 + |carried| || |body.outputs| < 1 + |carried| then None
          else
            var nScan := |body.outputs| - 1 - |carried|;
            var init := LoopState(carried, seq(nScan, j => []));
            match RunLoop(body, scope, trip, 0, args[1].b, init)
            case None => None
            case Some(st) =>
              var outs := st.carried + seq(|st.scans|, j requires 0 <= j < |st.scans| => Tensor(st.scans[j]));
              if |outs| == |n.outputs| then Some(outs) else None
  }

  /** Iterations `k`, `k + 1`, ... of a loop body, from state `st`. */
  function RunLoop(body: Graph, scope: Scope, trip: nat, k: nat, cond: bool, st: LoopState): Option<LoopState>
    decreases body, 1, trip - k
  {
    if k >= trip || !cond then Some(st)
    else if |body.inputs| != 2 + |st.carried| then None
    else
      var vals := [IterationValue(body.inputs[0], k), BoolVal(cond)] + st.carried;
      match EvalGraph(body, Bind(scope, Names(body.inputs), vals))
      case None => None
      case Some(outs) =>
        var nc := |st.carried|;
        if |outs| != 1 + nc + |st.scans| || !outs[0].BoolVal? then None
        else
          var scans := seq(|st.scans|, j requires 0 <= j < |st.scans| => st.scans[j] + [outs[1 + nc + j]]);
          RunLoop(body, scope, trip, k + 1, outs[0].b, LoopState(outs[1..1 + nc], scans))
  }
}

=== FILE: onnx_ir.dfy ===
/**
 * The slice of the ONNX intermediate representation that the Select lowering
 * emits: names, value signatures, nodes, attributes and (sub)graphs, as plain
 * values.  The protobuf builders of the onnx package become datatype
 * constructors; element types and operator kinds become enumeration tags.
 */
module OnnxIr {

  import opened Wrappers

  /** TensorProto element types; `Undefined` also stands for a dtype the
      graph context has never inferred. */
  datatype ElemType = Undefined | Float | Bool | Int64 | OtherType(code: int)

  /** A shape as the graph context reports it, one entry per dimension. */
  type Shape = seq<int>

  /**
   * A tensor, node or graph-value name.  `Plain` names are literal strings
   * (names of the converted TensorFlow graph and the fixed names "i", "cond",
   * "y", ... used inside subgraphs); `Fresh(prefix, id)` is what the name
   * registry hands out when its counter stands at `id`; `Port(n, k)` is the
   * name of output slot `k` of node `n`.
   */
  datatype Name =
    | Plain(text: string)
    | Fresh(prefix: string, id: nat)
    | Port(node: Name, slot: nat)

  /** The name of output slot `slot` of the node called `n`. */
  function PortName(n: Name, slot: nat): (r: Name)
    ensures r.Port? && r.node == n && r.slot == slot
  {
    Port(n, slot)
  }

  lemma PortNameInjective(n: Name, k: nat, m: Name, l: nat)
    ensures PortName(n, k) == PortName(m, l) <==> n == m && k == l
  {
  }

  /** `n` was in existence before the registry counter reached `c`: it holds
      no fresh name with an id at or above `c`. */
  predicate Predates(n: Name, c: nat)
  {
    match n
    case Plain(_) => true
    case Fresh(_, id) => id < c
    case Port(m, _) => Predates(m, c)
  }

  /** Python's `shape[1:]`: drop the leading (batch) dimension, if any. */
  function Tail(s: Shape): (r: Shape)
    ensures |s| > 0 ==> r == s[1..]
    ensures |s| == 0 ==> r == []
  {
    if |s| == 0 then [] else s[1..]
  }

  /** A scalar literal stored in a tensor attribute.  Float payloads are kept
      opaque (their bit pattern); no arithmetic is ever done on them. */
  datatype Literal = BoolLit(b: bool) | FloatLit(bits: int)

  datatype TensorLiteral = TensorLiteral(name: Name, elemType: ElemType, dims: seq<int>, vals: seq<Literal>)

  datatype ValueInfo = ValueInfo(name: Name, elemType: ElemType, shape: Shape)

  datatype AttrValue =
    | Ints(ints: seq<int>)
    | TensorAttr(tensor: TensorLiteral)
    | GraphAttr(graph: Graph)

  datatype Attribute = Attribute(key: string, value: AttrValue)

  /** The operator kinds the lowering emits. */
  datatype Op = Size | Constant | Unsqueeze | Squeeze | Gather | Identity | If | Loop

  datatype Node = Node(op: Op, inputs: seq<Name>, outputs: seq<Name>, name: Name, attrs: seq<Attribute>)

  datatype Graph = Graph(nodes: seq<Node>, name: string, inputs: seq<ValueInfo>, outputs: seq<ValueInfo>)

  function Names(vs: seq<ValueInfo>): (r: seq<Name>)
    ensures |r| == |vs|
    ensures forall k :: 0 <= k < |vs| ==> r[k] == vs[k].name
  {
    seq(|vs|, k requires 0 <= k < |vs| => vs[k].name)
  }

  /** The index of the first attribute called `key`, if any. */
  function FindAttr(attrs: seq<Attribute>, key: string): (r: Option<nat>)
    ensures r.Some? ==> r.value < |attrs| && attrs[r.value].key == key
    ensures r.None? ==> forall k :: 0 <= k < |attrs| ==> attrs[k].key != key
  {
    if |attrs| == 0 then None
    else if attrs[0].key == key then Some(0)
    else match FindAttr(attrs[1..], key)
      case None => None
      case Some(k) => Some(k + 1)
  }
}

=== FILE: scopes.dfy ===
/**
 * Structural well-formedness of node lists and nested graphs: which names a
 * node may read (lexical scoping, with capture from enclosing graphs), and
 * which node names occur anywhere in a construct.
 */
module Scopes {

  import opened OnnxIr

  /** The node names of a node list, those of nested subgraphs included. */
  function NodeNames(nodes: seq<Node>): seq<Name>
    decreases nodes
  {
    if |nodes| == 0 then []
    else [nodes[0].name] + AttrNodeNames(nodes[0].attrs) + NodeNames(nodes[1..])
  }

  function AttrNodeNames(attrs: seq<Attribute>): seq<Name>
    decreases attrs
  {
    if |attrs| == 0 then []
    else
      (match attrs[0].value
       case GraphAttr(g) => NodeNames(g.nodes)
       case _ => [])
      + AttrNodeNames(attrs[1..])
  }

  predicate Distinct(s: seq<Name>)
  {
    forall a, b | 0 <= a < b < |s| :: s[a] != s[b]
  }

  /** Every name in `s` was handed out by the registry while its counter
      stood in `[lo, hi)`. */
  predicate FreshIn(s: seq<Name>, lo: nat, hi: nat)
  {
    forall n | n in s :: n.Fresh? && lo <= n.id < hi
  }

  lemma {:induction false} DistinctConcat(a: seq<Name>, b: seq<Name>)
    requires Distinct(a) && Distinct(b)
    requires forall x | x in a :: x !in b
    ensures Distinct(a + b)
  {
    forall i, j | 0 <= i < j < |a + b|
      ensures (a + b)[i] != (a + b)[j]
    {
      if j < |a| {
        assert (a + b)[i] == a[i] && (a + b)[j] == a[j];
      } else if i < |a| {
        assert (a + b)[i] == a[i] && a[i] in a;
        assert (a + b)[j] == b[j - |a|] && b[j - |a|] in b;
      } else {
        assert (a + b)[i] == b[i - |a|] && (a + b)[j] == b[j - |a|];
      }
    }
  }

  /** The outputs of the nodes of a list, top level only. */
  function Produced(nodes: seq<Node>): set<Name>
  {
    set k, o | 0 <= k < |nodes| && o in nodes[k].outputs :: o
  }

  /**
   * Each node reads only names visible at its position (the enclosing
   * scopes, the graph's formal inputs and earlier outputs), writes names that
   * are not yet visible, and its subgraphs are well scoped in the scope
   * visible at that node.
   */
  predicate NodesScoped(nodes: seq<Node>, visible: set<Name>)
    decreases nodes
  {
    |nodes| == 0 ||
    (NodeScoped(nodes[0], visible) &&
     NodesScoped(nodes[1..], visible + set o | o in nodes[0].outputs))
  }

  predicate NodeScoped(n: Node, visible: set<Name>)
    decreases n
  {
    && (forall x | x in n.inputs :: x in visible)
    && (forall o | o in n.outputs :: o !in visible)
    && Distinct(n.outputs)
    && AttrsScoped(n.attrs, visible)
  }

  predicate AttrsScoped(attrs: seq<Attribute>, visible: set<Name>)
    decreases attrs
  {
    |attrs| == 0 ||
    ((attrs[0].value.GraphAttr? ==> GraphScoped(attrs[0].value.graph, visible)) &&
     AttrsScoped(attrs[1..], visible))
  }

  /** A subgraph: fresh formal inputs, well-scoped nodes, and every declared
      output resolves to a name produced inside it or visible to it. */
  predicate GraphScoped(g: Graph, outer: set<Name>)
    decreases g
  {
    var formals := Names(g.inputs);
    && Distinct(formals)
    && (forall x | x in formals :: x !in outer)
    && NodesScoped(g.nodes, outer + set x | x in formals)
    && (forall o | o in Names(g.outputs) ::
          o in outer || o in formals || o in Produced(g.nodes))
  }
}

=== FILE: select.dfy ===
/**
 * tf2onnx/function/select.py as written: builders that grow a node list
 * step by step, draw names from the shared registry and, at the top level,
 * write the output's type back into the graph context.  Each method is
 * proved to emit exactly what the corresponding function of module
 * Lowering describes and to advance the registry by that function's count.
 */
module Select {

  import opened Wrappers
  import opened OnnxIr
  import opened GraphContext
  import opened Lowering

  /** `select_op8`: rewrite `Select(condition, x, y)` into Size, the loop
      construct and a final Identity named after the original node. */
  method SelectOp8(ctx: Context, names: NameRegistry, node: SelectNode) returns (r: Result<seq<Node>, Error>)
    modifies ctx, names
    ensures Emitted(r, names.counter) == SelectLowering(old(ctx.info), node, old(names.counter))
    ensures r.Failure? ==> ctx.info == old(ctx.info) && ctx.shapeCopies == old(ctx.shapeCopies)
    ensures r.Success? ==>
      && ctx.info == old(ctx.info).(dtypes := old(ctx.info).dtypes[node.outputs[0] := old(ctx.info).GetDtype(node.inputs[1])])
      && ctx.shapeCopies == old(ctx.shapeCopies) + [(node.outputs[0], r.value[4].outputs[1])]
  {
    ghost var c := names.counter;
    if |node.inputs| == 1 {
      return Failure(UnsupportedArity);
    }
    var info := ctx.info;
    var nodes: seq<Node> := [];
    if |node.inputs| < 2 {
      return Failure(MissingInput(1));
    }
    var x := node.inputs[1];
    var dataType := info.GetDtype(x);

    var opName := names.MakeName("Size");
    var outName := PortName(opName, 0);
    var batchSizeNode := Node(Size, [node.inputs[0]], [outName], opName, []);
    nodes := nodes + [batchSizeNode];
    assert nodes == [batchSizeNode];

    ghost var cLoop := names.counter;
    var loopResult := CreateLoopOp(info, names, node, batchSizeNode.outputs[0], dataType);
    if loopResult.Failure? {
      SelectLoweringFailsAt(info, node, c, cLoop);
      return Failure(loopResult.error);
    }
    var nodesToAppend := loopResult.value;
    SelectLoweringEmitsAt(info, node, c, cLoop, nodesToAppend);
    nodes := nodes + nodesToAppend;
    assert nodes[4] == nodesToAppend[3];

    var loopScanOutputId := nodes[|nodes| - 1].outputs[1];
    if |node.outputs| == 0 {
      return Failure(MissingOutput(0));
    }
    ctx.CopyShape(node.outputs[0], loopScanOutputId);
    ctx.SetDtype(node.outputs[0], dataType);

    opName := node.name;
    outName := PortName(opName, 0);
    var outputNode := Node(Identity, [loopScanOutputId], [outName], opName, []);
    nodes := nodes + [outputNode];
    assert nodes == [batchSizeNode] + nodesToAppend + [outputNode];
    return Success(nodes);
  }

  /** `create_loop_op`: the two initial loop values, the trip count and the
      Loop node, whose body attribute is set once the body is built. */
  method CreateLoopOp(info: TypeInfo, names: NameRegistry, node: SelectNode, batchValInputId: Name, dataType: ElemType)
    returns (r: Result<seq<Node>, Error>)
    modifies names
    ensures var e := LoopOp(info, node, batchValInputId, dataType, old(names.counter));
      r == e.result && names.counter == e.next
  {
    ghost var c := names.counter;
    var nodes: seq<Node> := [];

    var condVarName := names.MakeName("condition");
    var initCond := Node(Constant, [], [condVarName], condVarName, [ScalarValue(condVarName, Bool, BoolLit(true))]);
    nodes := nodes + [initCond];

    // Loop requires at least one loop-carried value: a placeholder.
    var fakeValName := names.MakeName("fake_var");
    var fakeVarInitNode := Node(Constant, [], [fakeValName], fakeValName, [ScalarValue(fakeValName, Float, FloatLit(0))]);
    nodes := nodes + [fakeVarInitNode];

    var tripCntName := names.MakeName("loop_gather_indices");
    var tripCntOutputId := PortName(tripCntName, 0);
    var tripCntCond := Node(Unsqueeze, [batchValInputId], [tripCntOutputId], tripCntName, [Axes0]);
    nodes := nodes + [tripCntCond];

    var opName := names.MakeName("loop");
    var outName := PortName(opName, 0);
    var loopInputs := [tripCntOutputId, condVarName, fakeValName];
    var loopScanOutputId := PortName(opName, 1);
    var loopNode := Node(Loop, loopInputs, [outName, loopScanOutputId], opName, []);
    if |node.inputs| == 0 {
      return Failure(MissingInput(0));
    }
    var condition := node.inputs[0];
    ghost var cBody := names.counter;
    var bodyResult := CreateLoopBodyGraph(info, names, node, condition, dataType);
    LoopOpEmits(info, node, batchValInputId, dataType, c, cBody);
    if bodyResult.Failure? {
      return Failure(bodyResult.error);
    }
    var loopBody := bodyResult.value;
    var bodyAttr := Attribute("body", GraphAttr(loopBody));
    loopNode := loopNode.(attrs := loopNode.attrs + [bodyAttr]);
    SingletonAppend(bodyAttr);
    nodes := nodes + [loopNode];
    FourAppends(initCond, fakeVarInitNode, tripCntCond, loopNode);
    return Success(nodes);
  }

  /** `create_loop_body_graph`: the per-iteration graph of the loop. */
  method CreateLoopBodyGraph(info: TypeInfo, names: NameRegistry, node: SelectNode,
                             selectConditionInputId: Name, selectOutputDataType: ElemType)
    returns (r: Result<Graph, Error>)
    modifies names
    ensures var e := LoopBody(info, node, selectConditionInputId, selectOutputDataType, old(names.counter));
      r == e.result && names.counter == e.next
  {
    ghost var c := names.counter;
    var nodes: seq<Node> := [];
    var graphInputs := BodyInputs;

    // the i-th value of the Select's condition
    var opName := names.MakeName("Gather");
    var condGatherOutName := PortName(opName, 0);
    var condGatherNode := Node(Gather, [selectConditionInputId, Plain("i")], [condGatherOutName], opName, []);
    nodes := nodes + [condGatherNode];

    opName := names.MakeName("Squeeze");
    var curCondValOutName := PortName(opName, 0);
    var curCondValScalarNode := Node(Squeeze, [condGatherOutName], [curCondValOutName], opName, [Axes0]);
    nodes := nodes + [curCondValScalarNode];

    var ifResult :- CreateIfOp(info, names, node, curCondValOutName);
    var (ifNode, ifNodeOutputId) := ifResult;
    nodes := nodes + [ifNode];

    var identityName := names.MakeName("Identity");
    var outputNode := Node(Identity, [ifNodeOutputId], [Plain("output")], identityName, []);
    nodes := nodes + [outputNode];

    identityName := names.MakeName("Identity");
    var condNode := Node(Identity, [Plain("cond")], [Plain("cond_output")], identityName, []);
    nodes := nodes + [condNode];

    identityName := names.MakeName("Identity");
    var fakeVarNode := Node(Identity, [Plain("fake_var")], [Plain("fake_var_output")], identityName, []);
    nodes := nodes + [fakeVarNode];
    assert nodes == [condGatherNode, curCondValScalarNode, ifNode, outputNode, condNode, fakeVarNode];

    var outputShape := GetHiddenSizeBestEffort(info, node).value;
    var graphOutputs := BodyOutputs(selectOutputDataType, outputShape);
    return Success(Graph(nodes, "loop-body-graph", graphInputs, graphOutputs));
  }

  /** `create_if_op`: the If node branching on `curCondValOutName`. */
  method CreateIfOp(info: TypeInfo, names: NameRegistry, node: SelectNode, curCondValOutName: Name)
    returns (r: Result<(Node, Name), Error>)
    modifies names
    ensures var e := IfOp(info, node, curCondValOutName, old(names.counter));
      r == e.result && names.counter == e.next
  {
    var dataShape :- GetHiddenSizeBestEffort(info, node);
    var trueGraph := CreateBodyGraphForIfBranch(info, names, node.inputs[1], dataShape);
    var falseInput :- Input(node, 2);
    var falseGraph := CreateBodyGraphForIfBranch(info, names, falseInput, dataShape);

    var opName := names.MakeName("If");
    var outName := PortName(opName, 0);
    var ifNode := Node(If, [curCondValOutName], [outName], opName,
                       [Attribute("then_branch", GraphAttr(trueGraph)), Attribute("else_branch", GraphAttr(falseGraph))]);
    return Success((ifNode, outName));
  }

  /** `create_body_graph_for_if_branch`: the branch graph reading row `i`
      of `inputId`. */
  method CreateBodyGraphForIfBranch(info: TypeInfo, names: NameRegistry, inputId: Name, dataShape: Shape)
    returns (g: Graph)
    modifies names
    ensures g == BranchGraph(inputId, info.GetDtype(inputId), dataShape, old(names.counter))
    ensures names.counter == old(names.counter) + 3
  {
    var dataType := info.GetDtype(inputId);
    var nodes: seq<Node> := [];

    var opName := names.MakeName("Gather");
    var trueOutName := PortName(opName, 0);
    nodes := nodes + [Node(Gather, [inputId, Plain("i")], [trueOutName], opName, [])];

    opName := names.MakeName("Squeeze");
    var trueSqueezeOutName := PortName(opName, 0);
    nodes := nodes + [Node(Squeeze, [trueOutName], [trueSqueezeOutName], opName, [Axes0])];

    var identityName := names.MakeName("Identity");
    nodes := nodes + [Node(Identity, [trueSqueezeOutName], [Plain("y")], identityName, [])];

    // one output
    var y := ValueInfo(Plain("y"), dataType, Tail(dataShape));
    return Graph(nodes, "if-body-graph", [], [y]);
  }

  /** Proof step of `SelectOp8`: a failing loop construct, built from the
      counter `cl`, one draw after `c`, fails the rewrite. */
  lemma SelectLoweringFailsAt(info: TypeInfo, node: SelectNode, c: nat, cl: nat)
    requires |node.inputs| >= 2 && cl == c + 1
    requires LoopOp(info, node, PortName(Fresh("Size", c), 0), info.GetDtype(node.inputs[1]), cl).result.Failure?
    ensures var loopStep := LoopOp(info, node, PortName(Fresh("Size", c), 0), info.GetDtype(node.inputs[1]), cl);
      SelectLowering(info, node, c) == Emitted(Failure(loopStep.result.error), loopStep.next)
  {
  }

  /** Proof step of `SelectOp8`: the rewrite once the loop construct, built
      from the counter `cl`, one draw after `c`, has produced `loopNodes`. */
  lemma SelectLoweringEmitsAt(info: TypeInfo, node: SelectNode, c: nat, cl: nat, loopNodes: seq<Node>)
    requires |node.inputs| >= 2 && cl == c + 1
    requires LoopOp(info, node, PortName(Fresh("Size", c), 0), info.GetDtype(node.inputs[1]), cl).result == Success(loopNodes)
    ensures |loopNodes| == 4 && |loopNodes[3].outputs| == 2
    ensures var next := LoopOp(info, node, PortName(Fresh("Size", c), 0), info.GetDtype(node.inputs[1]), cl).next;
      SelectLowering(info, node, c) ==
        if |node.outputs| == 0 then Emitted(Failure(MissingOutput(0)), next)
        else Emitted(Success(
          [Node(Size, [node.inputs[0]], [PortName(Fresh("Size", c), 0)], Fresh("Size", c), [])]
          + loopNodes
          + [Node(Identity, [loopNodes[3].outputs[1]], [PortName(node.name, 0)], node.name, [])]), next)
  {
  }

  /** Proof step: appending to the empty list. */
  lemma SingletonAppend<T>(x: T)
    ensures [] + [x] == [x]
  {
  }

  /** Proof step: appending four elements one by one to the empty list
      builds the literal list. */
  lemma FourAppends<T>(a: T, b: T, c: T, d: T)
    ensures [] + [a] + [b] + [c] + [d] == [a, b, c, d]
  {
  }

  /** Proof step of `CreateLoopOp`: `LoopOp` unfolded at the counter `cb`
      from which the body is built, four draws after `c`. */
  lemma LoopOpEmits(info: TypeInfo, node: SelectNode, batchId: Name, dtype: ElemType, c: nat, cb: nat)
    requires |node.inputs| > 0 && cb == c + 4
    ensures
      var body := LoopBody(info, node, node.inputs[0], dtype, cb);
      var condName, fakeName := Fresh("condition", c), Fresh("fake_var", c + 1);
      var tripName, loopName := Fresh("loop_gather_indices", c + 2), Fresh("loop", c + 3);
      LoopOp(info, node, batchId, dtype, c) ==
        if body.result.Failure? then Emitted(Failure(body.result.error), body.next)
        else Emitted(Success(
          [Node(Constant, [], [condName], condName, [ScalarValue(condName, Bool, BoolLit(true))]),
           Node(Constant, [], [fakeName], fakeName, [ScalarValue(fakeName, Float, FloatLit(0))]),
           Node(Unsqueeze, [batchId], [PortName(tripName, 0)], tripName, [Axes0]),
           Node(Loop, [PortName(tripName, 0), condName, fakeName],
                [PortName(loopName, 0), PortName(loopName, 1)], loopName,
                [Attribute("body", GraphAttr(body.result.value))])]),
          body.next)
  {
  }
}

=== FILE: select_semantics.dfy ===
/**
 * What the emitted construct computes.  Run by the interpreter of module
 * OnnxEval, the node list of the Select rewrite defines the original node's
 * output as the row-wise selection `x[k]` where `cond[k]`, else `y[k]`, for
 * a one-dimensional condition whose size is the number of rows.
 */
module SelectSemantics {

  import opened Wrappers
  import opened OnnxIr
  import opened GraphContext
  import opened Lowering
  import opened OnnxEval

  /** The intended meaning of `Select(cond, x, y)` on rows. */
  function SelectRows(conds: seq<bool>, xs: seq<Value>, ys: seq<Value>): seq<Value>
    requires |xs| == |conds| && |ys| == |conds|
  {
    seq(|conds|, k requires 0 <= k < |conds| => if conds[k] then xs[k] else ys[k])
  }

  /** A one-dimensional boolean tensor's rows. */
  function Flags(conds: seq<bool>): seq<Value>
  {
    seq(|conds|, k requires 0 <= k < |conds| => BoolVal(conds[k]))
  }

  lemma RunNodesStep(nodes: seq<Node>, k: nat, scope: Scope, vals: seq<Value>)
    requires k < |nodes|
    requires EvalNode(nodes[k], scope) == Some(vals) && |vals| == |nodes[k].outputs|
    ensures RunNodes(nodes, k, scope) == RunNodes(nodes, k + 1, Bind(scope, nodes[k].outputs, vals))
  {
  }

  lemma BindOne(scope: Scope, o: Name, v: Value)
    ensures Bind(scope, [o], [v]) == scope[o := v]
  {
    assert [o][1..] == [] && [v][1..] == [];
  }

  lemma LookupOne(scope: Scope, n: Name)
    requires n in scope
    ensures Lookup(scope, [n]) == Some([scope[n]])
  {
    assert Lookup(scope, [n]).value == [scope[n]];
  }

  lemma RunOne(nodes: seq<Node>, k: nat, scope: Scope, v: Value)
    requires k < |nodes| && |nodes[k].outputs| == 1
    requires EvalNode(nodes[k], scope) == Some([v])
    ensures RunNodes(nodes, k, scope) == RunNodes(nodes, k + 1, scope[nodes[k].outputs[0] := v])
  {
    RunNodesStep(nodes, k, scope, [v]);
    assert nodes[k].outputs == [nodes[k].outputs[0]];
    BindOne(scope, nodes[k].outputs[0], v);
  }

  lemma EvalIdentity(n: Node, scope: Scope)
    requires n.op == Identity && |n.inputs| == 1 && n.inputs[0] in scope
    ensures EvalNode(n, scope) == Some([scope[n.inputs[0]]])
  {
    assert n.inputs == [n.inputs[0]];
    LookupOne(scope, n.inputs[0]);
  }

  /** Gathering row `k` with the index tensor `[k]` yields a one-row tensor. */
  lemma GatherSingleRow(rows: seq<Value>, k: nat)
    requires k < |rows|
    ensures GatherRows(Tensor(rows), Tensor([IntVal(k)])) == Some(Tensor([rows[k]]))
  {
    var js := [IntVal(k)];
    assert forall m :: 0 <= m < |js| ==> js[m].IntVal? && 0 <= js[m].i < |rows|;
    assert seq(|js|, m requires 0 <= m < |js| => rows[js[m].i]) == [rows[k]];
  }

  lemma AxesOfSqueeze()
    ensures HasAxes0([Axes0])
  {
    assert FindAttr([Axes0], "axes") == Some(0);
  }

  /**
   * The Gather-at-`i` then Squeeze(axes 0) pair at `nodes[j]`, `nodes[j+1]`
   * (as in the loop body and in both branch graphs) turns row `k` of the
   * gathered tensor into a value of its own.
   */
  lemma GatherSqueezeRow(nodes: seq<Node>, j: nat, scope: Scope, data: Name, gather: Name, squeeze: Name,
                         rows: seq<Value>, k: nat)
    requires j + 1 < |nodes|
    requires nodes[j] == Node(Gather, [data, Plain("i")], [PortName(gather, 0)], gather, [])
    requires nodes[j + 1] == Node(Squeeze, [PortName(gather, 0)], [PortName(squeeze, 0)], squeeze, [Axes0])
    requires data in scope && scope[data] == Tensor(rows)
    requires Plain("i") in scope && scope[Plain("i")] == Tensor([IntVal(k)])
    requires k < |rows|
    ensures RunNodes(nodes, j, scope) ==
            RunNodes(nodes, j + 2, scope[PortName(gather, 0) := Tensor([rows[k]])][PortName(squeeze, 0) := rows[k]])
  {
    GatherSingleRow(rows, k);
    assert Lookup(scope, [data, Plain("i")]).value == [Tensor(rows), Tensor([IntVal(k)])];
    assert EvalNode(nodes[j], scope) == Some([Tensor([rows[k]])]);
    RunOne(nodes, j, scope, Tensor([rows[k]]));
    var s1 := scope[PortName(gather, 0) := Tensor([rows[k]])];
    LookupOne(s1, PortName(gather, 0));
    AxesOfSqueeze();
    assert EvalNode(nodes[j + 1], s1) == Some([rows[k]]);
    RunOne(nodes, j + 1, s1, rows[k]);
  }

  /**
   * A branch graph of the If reads row `i` of its operand: run in a scope
   * where the operand holds `rows` and the captured `i` holds `[k]`, its one
   * output is `rows[k]`.
   */
  lemma BranchSelectsRow(input: Name, dtype: ElemType, shape: Shape, c: nat, scope: Scope, rows: seq<Value>, k: nat)
    requires input in scope && scope[input] == Tensor(rows)
    requires Plain("i") in scope && scope[Plain("i")] == Tensor([IntVal(k)])
    requires k < |rows|
    ensures EvalGraph(BranchGraph(input, dtype, shape, c), scope) == Some([rows[k]])
  {
    var g := BranchGraph(input, dtype, shape, c);
    var gather, squeeze := Fresh("Gather", c), Fresh("Squeeze", c + 1);
    GatherSqueezeRow(g.nodes, 0, scope, input, gather, squeeze, rows, k);
    var s2 := scope[PortName(gather, 0) := Tensor([rows[k]])][PortName(squeeze, 0) := rows[k]];
    EvalIdentity(g.nodes[2], s2);
    RunOne(g.nodes, 2, s2, rows[k]);
    var s3 := s2[Plain("y") := rows[k]];
    assert RunNodes(g.nodes, 3, s3) == Some(s3);
    assert Names(g.outputs) == [Plain("y")];
    LookupOne(s3, Plain("y"));
  }

  /** The If construct selects: with the scalar condition `b` and the
      captured `i` holding `[k]`, its output is `x[k]` when `b` holds and
      `y[k]` otherwise. */
  lemma IfSelectsRow(info: TypeInfo, node: SelectNode, condName: Name, c: nat, scope: Scope,
                     b: bool, xs: seq<Value>, ys: seq<Value>, k: nat)
    requires IfOp(info, node, condName, c).result.Success?
    requires condName in scope && scope[condName] == BoolVal(b)
    requires node.inputs[1] in scope && scope[node.inputs[1]] == Tensor(xs)
    requires node.inputs[2] in scope && scope[node.inputs[2]] == Tensor(ys)
    requires Plain("i") in scope && scope[Plain("i")] == Tensor([IntVal(k)])
    requires k < |xs| && k < |ys|
    ensures EvalNode(IfOp(info, node, condName, c).result.value.0, scope) == Some([if b then xs[k] else ys[k]])
  {
    IfOpNode(info, node, condName, c);
    var n := IfOp(info, node, condName, c).result.value.0;
    var shape := GetHiddenSizeBestEffort(info, node).value;
    var thenG := BranchGraph(node.inputs[1], info.GetDtype(node.inputs[1]), shape, c);
    var elseG := BranchGraph(node.inputs[2], info.GetDtype(node.inputs[2]), shape, c + 3);
    LookupOne(scope, condName);
    assert "then_branch"[0] != "else_branch"[0];
    assert n.attrs[1..] == [Attribute("else_branch", GraphAttr(elseG))];
    assert FindAttr(n.attrs, "else_branch") == Some(1);
    assert GraphOf(n.attrs, "then_branch") == Some(thenG);
    assert GraphOf(n.attrs, "else_branch") == Some(elseG);
    if b {
      BranchSelectsRow(node.inputs[1], info.GetDtype(node.inputs[1]), shape, c, scope, xs, k);
      assert EvalIf(n, b, scope) == Some([xs[k]]);
    } else {
      BranchSelectsRow(node.inputs[2], info.GetDtype(node.inputs[2]), shape, c + 3, scope, ys, k);
      assert EvalIf(n, b, scope) == Some([ys[k]]);
    }
  }

  /** A value the loop body can capture from the enclosing graph: it
      predates the rewrite and is not one of the body's formal names. */
  predicate Captured(x: Name, c: nat)
  {
    Predates(x, c) && x != Plain("i") && x != Plain("cond") && x != Plain("fake_var")
  }

  /** The scope one loop iteration runs in. */
  function BodyScope(env: Scope, k: nat, cv: bool, fv: Value): Scope
  {
    env[Plain("i") := Tensor([IntVal(k)])][Plain("cond") := BoolVal(cv)][Plain("fake_var") := fv]
  }

  lemma BodyInputsBound(env: Scope, k: nat, cv: bool, fv: Value)
    ensures Bind(env, Names(BodyInputs), [IterationValue(BodyInputs[0], k), BoolVal(cv), fv]) == BodyScope(env, k, cv, fv)
  {
    var names := Names(BodyInputs);
    assert names == [Plain("i"), Plain("cond"), Plain("fake_var")];
    var vals := [IterationValue(BodyInputs[0], k), BoolVal(cv), fv];
    assert vals[0] == Tensor([IntVal(k)]);
    assert names[1..][1..] == [Plain("fake_var")] && vals[1..][1..] == [fv];
    BindOne(env[Plain("i") := vals[0]][Plain("cond") := BoolVal(cv)], Plain("fake_var"), fv);
  }

  /** Iterating, the fresh names the body writes never clash with a value
      that predates the rewrite. */
  lemma FreshPortIsNew(x: Name, c: nat, prefix: string, id: nat, slot: nat)
    requires Predates(x, c) && c <= id
    ensures x != PortName(Fresh(prefix, id), slot)
  {
  }

  /** The three pass-through Identities at the end of the loop body. */
  lemma BodyOutputsBound(nodes: seq<Node>, s3: Scope, ifOut: Name, cb: nat, row: Value, cv: bool, fv: Value)
    requires |nodes| == 6
    requires nodes[3] == Node(Identity, [ifOut], [Plain("output")], Fresh("Identity", cb + 9), [])
    requires nodes[4] == Node(Identity, [Plain("cond")], [Plain("cond_output")], Fresh("Identity", cb + 10), [])
    requires nodes[5] == Node(Identity, [Plain("fake_var")], [Plain("fake_var_output")], Fresh("Identity", cb + 11), [])
    requires ifOut in s3 && s3[ifOut] == row
    requires Plain("cond") in s3 && s3[Plain("cond")] == BoolVal(cv)
    requires Plain("fake_var") in s3 && s3[Plain("fake_var")] == fv
    ensures RunNodes(nodes, 3, s3).Some?
    ensures Lookup(RunNodes(nodes, 3, s3).value, [Plain("cond_output"), Plain("fake_var_output"), Plain("output")])
            == Some([BoolVal(cv), fv, row])
  {
    EvalIdentity(nodes[3], s3);
    RunOne(nodes, 3, s3, row);
    var s4 := s3[Plain("output") := row];
    EvalIdentity(nodes[4], s4);
    RunOne(nodes, 4, s4, BoolVal(cv));
    var s5 := s4[Plain("cond_output") := BoolVal(cv)];
    EvalIdentity(nodes[5], s5);
    RunOne(nodes, 5, s5, fv);
    var s6 := s5[Plain("fake_var_output") := fv];
    assert RunNodes(nodes, 6, s6) == Some(s6);
    assert Lookup(s6, [Plain("cond_output"), Plain("fake_var_output"), Plain("output")]).value == [BoolVal(cv), fv, row];
  }

  /** The first three nodes of the loop body: Gather, Squeeze and If. */
  lemma BodyHeadRuns(nodes: seq<Node>, s0: Scope, condId: Name, gather: Name, squeeze: Name, ifOut: Name,
                     flags: seq<Value>, k: nat, row: Value)
    requires |nodes| == 6
    requires nodes[0] == Node(Gather, [condId, Plain("i")], [PortName(gather, 0)], gather, [])
    requires nodes[1] == Node(Squeeze, [PortName(gather, 0)], [PortName(squeeze, 0)], squeeze, [Axes0])
    requires nodes[2].outputs == [ifOut]
    requires condId in s0 && s0[condId] == Tensor(flags) && k < |flags|
    requires Plain("i") in s0 && s0[Plain("i")] == Tensor([IntVal(k)])
    requires EvalNode(nodes[2], s0[PortName(gather, 0) := Tensor([flags[k]])][PortName(squeeze, 0) := flags[k]]) == Some([row])
    ensures RunNodes(nodes, 0, s0)
         == RunNodes(nodes, 3, s0[PortName(gather, 0) := Tensor([flags[k]])][PortName(squeeze, 0) := flags[k]][ifOut := row])
  {
    GatherSqueezeRow(nodes, 0, s0, condId, gather, squeeze, flags, k);
    var s2 := s0[PortName(gather, 0) := Tensor([flags[k]])][PortName(squeeze, 0) := flags[k]];
    RunOne(nodes, 2, s2, row);
  }

  /**
   * The loop body's node list, run in order: the condition row becomes a
   * scalar, the If (whose output is `row` in that scope) fires, and the
   * three Identities expose flag, placeholder and row.
   */
  lemma BodyNodesRun(nodes: seq<Node>, s0: Scope, condId: Name, gather: Name, squeeze: Name, ifOut: Name,
                     cb: nat, flags: seq<Value>, k: nat, row: Value, cv: bool, fv: Value)
    requires |nodes| == 6
    requires nodes[0] == Node(Gather, [condId, Plain("i")], [PortName(gather, 0)], gather, [])
    requires nodes[1] == Node(Squeeze, [PortName(gather, 0)], [PortName(squeeze, 0)], squeeze, [Axes0])
    requires nodes[2].outputs == [ifOut]
    requires nodes[3] == Node(Identity, [ifOut], [Plain("output")], Fresh("Identity", cb + 9), [])
    requires nodes[4] == Node(Identity, [Plain("cond")], [Plain("cond_output")], Fresh("Identity", cb + 10), [])
    requires nodes[5] == Node(Identity, [Plain("fake_var")], [Plain("fake_var_output")], Fresh("Identity", cb + 11), [])
    requires condId in s0 && s0[condId] == Tensor(flags) && k < |flags|
    requires Plain("i") in s0 && s0[Plain("i")] == Tensor([IntVal(k)])
    requires Plain("cond") in s0 && s0[Plain("cond")] == BoolVal(cv)
    requires Plain("fake_var") in s0 && s0[Plain("fake_var")] == fv
    requires gather.Fresh? && squeeze.Fresh? && ifOut.Port?
    requires EvalNode(nodes[2], s0[PortName(gather, 0) := Tensor([flags[k]])][PortName(squeeze, 0) := flags[k]]) == Some([row])
    ensures RunNodes(nodes, 0, s0).Some?
    ensures Lookup(RunNodes(nodes, 0, s0).value, [Plain("cond_output"), Plain("fake_var_output"), Plain("output")])
            == Some([BoolVal(cv), fv, row])
  {
    BodyHeadRuns(nodes, s0, condId, gather, squeeze, ifOut, flags, k, row);
    var s3 := s0[PortName(gather, 0) := Tensor([flags[k]])][PortName(squeeze, 0) := flags[k]][ifOut := row];
    BodyOutputsBound(nodes, s3, ifOut, cb, row, cv, fv);
  }

  /** Inside the body, after the condition row became a scalar, the If
      still sees `x` and `y` as the enclosing graph defined them. */
  lemma BodyIfSelects(info: TypeInfo, node: SelectNode, cb: nat, c: nat, s0: Scope,
                      conds: seq<bool>, xs: seq<Value>, ys: seq<Value>, k: nat)
    requires IfOp(info, node, BodyCondName(cb), cb + 2).result.Success?
    requires c <= cb
    requires Predates(node.inputs[1], c) && Predates(node.inputs[2], c)
    requires node.inputs[1] in s0 && s0[node.inputs[1]] == Tensor(xs)
    requires node.inputs[2] in s0 && s0[node.inputs[2]] == Tensor(ys)
    requires Plain("i") in s0 && s0[Plain("i")] == Tensor([IntVal(k)])
    requires |xs| == |conds| && |ys| == |conds| && k < |conds|
    ensures EvalNode(IfOp(info, node, BodyCondName(cb), cb + 2).result.value.0,
                     s0[PortName(Fresh("Gather", cb), 0) := Tensor([Flags(conds)[k]])][BodyCondName(cb) := Flags(conds)[k]])
            == Some([if conds[k] then xs[k] else ys[k]])
  {
    var s2 := s0[PortName(Fresh("Gather", cb), 0) := Tensor([Flags(conds)[k]])][BodyCondName(cb) := Flags(conds)[k]];
    FreshPortIsNew(node.inputs[1], c, "Gather", cb, 0);
    FreshPortIsNew(node.inputs[1], c, "Squeeze", cb + 1, 0);
    FreshPortIsNew(node.inputs[2], c, "Gather", cb, 0);
    FreshPortIsNew(node.inputs[2], c, "Squeeze", cb + 1, 0);
    IfSelectsRow(info, node, BodyCondName(cb), cb + 2, s2, conds[k], xs, ys, k);
  }

  lemma BodyOutputNames(dtype: ElemType, shape: Shape)
    ensures Names(BodyOutputs(dtype, shape)) == [Plain("cond_output"), Plain("fake_var_output"), Plain("output")]
  {
  }

  /**
   * One iteration of the loop body: row `k` of the condition picks row `k`
   * of `x` or of `y` as the scan value, and the continuation flag and the
   * placeholder pass through unchanged.
   */
  lemma BodyStepSelects(info: TypeInfo, node: SelectNode, dtype: ElemType, cb: nat, c: nat, env: Scope,
                        conds: seq<bool>, xs: seq<Value>, ys: seq<Value>, k: nat, cv: bool, fv: Value)
    requires |node.inputs| >= 3
    requires LoopBody(info, node, node.inputs[0], dtype, cb).result.Success?
    requires c <= cb
    requires Captured(node.inputs[0], c) && Captured(node.inputs[1], c) && Captured(node.inputs[2], c)
    requires node.inputs[0] in env && env[node.inputs[0]] == Tensor(Flags(conds))
    requires node.inputs[1] in env && env[node.inputs[1]] == Tensor(xs)
    requires node.inputs[2] in env && env[node.inputs[2]] == Tensor(ys)
    requires |xs| == |conds| && |ys| == |conds| && k < |conds|
    ensures EvalGraph(LoopBody(info, node, node.inputs[0], dtype, cb).result.value, BodyScope(env, k, cv, fv))
            == Some([BoolVal(cv), fv, if conds[k] then xs[k] else ys[k]])
  {
    LoopBodyGraph(info, node, node.inputs[0], dtype, cb);
    var g := LoopBody(info, node, node.inputs[0], dtype, cb).result.value;
    var ifStep := IfOp(info, node, BodyCondName(cb), cb + 2);
    IfOpNode(info, node, BodyCondName(cb), cb + 2);
    var s0 := BodyScope(env, k, cv, fv);
    BodyIfSelects(info, node, cb, c, s0, conds, xs, ys, k);
    BodyNodesRun(g.nodes, s0, node.inputs[0], Fresh("Gather", cb), Fresh("Squeeze", cb + 1), ifStep.result.value.1,
                 cb, Flags(conds), k, if conds[k] then xs[k] else ys[k], cv, fv);
    BodyOutputNames(dtype, GetHiddenSizeBestEffort(info, node).value);
  }

  /** One turn of `RunLoop` with the continuation flag up. */
  lemma RunLoopStep(body: Graph, scope: Scope, trip: nat, k: nat, fv: Value, prefix: seq<Value>, outs: seq<Value>, row: Value)
    requires k < trip
    requires |body.inputs| == 3
    requires EvalGraph(body, Bind(scope, Names(body.inputs), [IterationValue(body.inputs[0], k), BoolVal(true), fv])) == Some(outs)
    requires outs == [BoolVal(true), fv, row]
    ensures RunLoop(body, scope, trip, k, true, LoopState([fv], [prefix]))
         == RunLoop(body, scope, trip, k + 1, true, LoopState([fv], [prefix + [row]]))
  {
    var st := LoopState([fv], [prefix]);
    assert [IterationValue(body.inputs[0], k), BoolVal(true)] + st.carried == [IterationValue(body.inputs[0], k), BoolVal(true), fv];
    var nc := |st.carried|;
    assert outs[1..1 + nc] == [fv];
    var scans := seq(|st.scans|, j requires 0 <= j < |st.scans| => st.scans[j] + [outs[1 + nc + j]]);
    assert scans == [prefix + [row]];
    assert RunLoop(body, scope, trip, k, true, st) == RunLoop(body, scope, trip, k + 1, outs[0].b, LoopState(outs[1..1 + nc], scans));
  }

  /**
   * The loop, from iteration `k` with the rows `0..k` already selected, runs
   * to the trip count and ends with every row selected; the placeholder is
   * carried through untouched.
   */
  lemma {:induction false} LoopRunSelects(info: TypeInfo, node: SelectNode, dtype: ElemType, cb: nat, c: nat, env: Scope,
                                          conds: seq<bool>, xs: seq<Value>, ys: seq<Value>, k: nat, fv: Value)
    requires |node.inputs| >= 3
    requires LoopBody(info, node, node.inputs[0], dtype, cb).result.Success?
    requires c <= cb
    requires Captured(node.inputs[0], c) && Captured(node.inputs[1], c) && Captured(node.inputs[2], c)
    requires node.inputs[0] in env && env[node.inputs[0]] == Tensor(Flags(conds))
    requires node.inputs[1] in env && env[node.inputs[1]] == Tensor(xs)
    requires node.inputs[2] in env && env[node.inputs[2]] == Tensor(ys)
    requires |xs| == |conds| && |ys| == |conds| && k <= |conds|
    ensures RunLoop(LoopBody(info, node, node.inputs[0], dtype, cb).result.value, env, |conds|, k, true,
                    LoopState([fv], [SelectRows(conds, xs, ys)[..k]]))
            == Some(LoopState([fv], [SelectRows(conds, xs, ys)]))
    decreases |conds| - k
  {
    var body := LoopBody(info, node, node.inputs[0], dtype, cb).result.value;
    var rows := SelectRows(conds, xs, ys);
    if k == |conds| {
      assert rows[..k] == rows;
    } else {
      LoopBodyGraph(info, node, node.inputs[0], dtype, cb);
      BodyInputsBound(env, k, true, fv);
      BodyStepSelects(info, node, dtype, cb, c, env, conds, xs, ys, k, true, fv);
      RunLoopStep(body, env, |conds|, k, fv, rows[..k], [BoolVal(true), fv, rows[k]], rows[k]);
      assert rows[..k] + [rows[k]] == rows[..k + 1];
      LoopRunSelects(info, node, dtype, cb, c, env, conds, xs, ys, k + 1, fv);
    }
  }

  /** A Loop node with trip count `[N]`, flag `true` and one placeholder,
      whose body runs to completion stacking `rows`: its outputs are the
      placeholder and the stacked rows. */
  lemma LoopNodeRuns(n: Node, body: Graph, env: Scope, trip: Name, flag: Name, fake: Name, N: nat, rows: seq<Value>)
    requires n.op == Loop && n.inputs == [trip, flag, fake] && |n.outputs| == 2
    requires n.attrs == [Attribute("body", GraphAttr(body))]
    requires |body.inputs| == 3 && |body.outputs| == 3
    requires trip in env && env[trip] == Tensor([IntVal(N)])
    requires flag in env && env[flag] == BoolVal(true)
    requires fake in env && env[fake] == Atom(0)
    requires RunLoop(body, env, N, 0, true, LoopState([Atom(0)], [[]])) == Some(LoopState([Atom(0)], [rows]))
    ensures EvalNode(n, env) == Some([Atom(0), Tensor(rows)])
  {
    var args := [Tensor([IntVal(N)]), BoolVal(true), Atom(0)];
    assert Lookup(env, n.inputs).value == args;
    assert FindAttr(n.attrs, "body") == Some(0);
    assert GraphOf(n.attrs, "body") == Some(body);
    assert TripCount(args[0]) == Some(N);
    var init := LoopState(args[2..], seq(1, j => []));
    assert init == LoopState([Atom(0)], [[]]);
    var st := LoopState([Atom(0)], [rows]);
    assert st.carried + seq(|st.scans|, j requires 0 <= j < |st.scans| => Tensor(st.scans[j])) == [Atom(0), Tensor(rows)];
    assert EvalLoop(n, args, env) == Some([Atom(0), Tensor(rows)]);
  }

  /**
   * The Loop node: with the trip count `[N]` for a condition of `N` rows,
   * the constant `true` flag and the placeholder, its outputs are the
   * untouched placeholder and the scan output holding every selected row.
   */
  lemma LoopSelects(info: TypeInfo, node: SelectNode, batchId: Name, dtype: ElemType, cl: nat, c: nat, env: Scope,
                    conds: seq<bool>, xs: seq<Value>, ys: seq<Value>)
    requires |node.inputs| >= 3
    requires LoopOp(info, node, batchId, dtype, cl).result.Success?
    requires c <= cl
    requires Captured(node.inputs[0], c) && Captured(node.inputs[1], c) && Captured(node.inputs[2], c)
    requires node.inputs[0] in env && env[node.inputs[0]] == Tensor(Flags(conds))
    requires node.inputs[1] in env && env[node.inputs[1]] == Tensor(xs)
    requires node.inputs[2] in env && env[node.inputs[2]] == Tensor(ys)
    requires |xs| == |conds| && |ys| == |conds|
    requires PortName(Fresh("loop_gather_indices", cl + 2), 0) in env
    requires env[PortName(Fresh("loop_gather_indices", cl + 2), 0)] == Tensor([IntVal(|conds|)])
    requires Fresh("condition", cl) in env && env[Fresh("condition", cl)] == BoolVal(true)
    requires Fresh("fake_var", cl + 1) in env && env[Fresh("fake_var", cl + 1)] == Atom(0)
    ensures EvalNode(LoopOp(info, node, batchId, dtype, cl).result.value[3], env)
            == Some([Atom(0), Tensor(SelectRows(conds, xs, ys))])
  {
    LoopOpNodes(info, node, batchId, dtype, cl);
    var body := LoopBody(info, node, node.inputs[0], dtype, cl + 4).result.value;
    LoopBodyGraph(info, node, node.inputs[0], dtype, cl + 4);
    var rows := SelectRows(conds, xs, ys);
    assert rows[..0] == [];
    LoopRunSelects(info, node, dtype, cl + 4, c, env, conds, xs, ys, 0, Atom(0));
    LoopNodeRuns(LoopOp(info, node, batchId, dtype, cl).result.value[3], body, env,
                 PortName(Fresh("loop_gather_indices", cl + 2), 0), Fresh("condition", cl), Fresh("fake_var", cl + 1),
                 |conds|, rows);
  }

  /** `Size` of a one-dimensional condition is its number of rows. */
  lemma {:induction false} CountFlags(conds: seq<bool>)
    ensures Count(Tensor(Flags(conds))) == |conds|
    ensures CountAll(Flags(conds)) == |conds|
  {
    if |conds| > 0 {
      assert Flags(conds)[0] == BoolVal(conds[0]);
      assert Flags(conds)[1..] == Flags(conds[1..]);
      CountFlags(conds[1..]);
    }
    assert Count(Tensor(Flags(conds))) == CountAll(Flags(conds));
  }

  lemma ScalarConstant(name: Name, elemType: ElemType, lit: Literal)
    ensures ConstantValue([ScalarValue(name, elemType, lit)]) ==
      Some(match lit case BoolLit(b) => BoolVal(b) case FloatLit(bits) => Atom(bits))
  {
    assert FindAttr([ScalarValue(name, elemType, lit)], "value") == Some(0);
  }

  /**
   * The four nodes ahead of the Loop: the condition's size, the constant
   * `true` flag, the constant placeholder and the trip count `[size]`.
   */
  lemma LoopInputsRun(nodes: seq<Node>, env: Scope, condId: Name, sizeName: Name, condName: Name, fakeName: Name,
                      tripName: Name, conds: seq<bool>)
    requires |nodes| >= 4
    requires nodes[0] == Node(Size, [condId], [PortName(sizeName, 0)], sizeName, [])
    requires nodes[1] == Node(Constant, [], [condName], condName, [ScalarValue(condName, Bool, BoolLit(true))])
    requires nodes[2] == Node(Constant, [], [fakeName], fakeName, [ScalarValue(fakeName, Float, FloatLit(0))])
    requires nodes[3] == Node(Unsqueeze, [PortName(sizeName, 0)], [PortName(tripName, 0)], tripName, [Axes0])
    requires condId in env && env[condId] == Tensor(Flags(conds))
    requires condName.Fresh? && fakeName.Fresh?
    ensures RunNodes(nodes, 0, env) ==
      RunNodes(nodes, 4, env[PortName(sizeName, 0) := IntVal(|conds|)][condName := BoolVal(true)][fakeName := Atom(0)]
                            [PortName(tripName, 0) := Tensor([IntVal(|conds|)])])
  {
    CountFlags(conds);
    LookupOne(env, condId);
    RunOne(nodes, 0, env, IntVal(|conds|));
    var s1 := env[PortName(sizeName, 0) := IntVal(|conds|)];
    ScalarConstant(condName, Bool, BoolLit(true));
    assert Lookup(s1, []) == Some([]);
    RunOne(nodes, 1, s1, BoolVal(true));
    var s2 := s1[condName := BoolVal(true)];
    ScalarConstant(fakeName, Float, FloatLit(0));
    assert Lookup(s2, []) == Some([]);
    RunOne(nodes, 2, s2, Atom(0));
    var s3 := s2[fakeName := Atom(0)];
    LookupOne(s3, PortName(sizeName, 0));
    AxesOfSqueeze();
    RunOne(nodes, 3, s3, Tensor([IntVal(|conds|)]));
  }

  /** The Loop and the final Identity: the scan output becomes the value
      of the original node's output name. */
  lemma LoopAndOutputRun(nodes: seq<Node>, s4: Scope, loopName: Name, outName: Name, rows: seq<Value>)
    requires |nodes| == 6
    requires nodes[4].outputs == [PortName(loopName, 0), PortName(loopName, 1)]
    requires EvalNode(nodes[4], s4) == Some([Atom(0), Tensor(rows)])
    requires nodes[5].op == Identity && nodes[5].inputs == [PortName(loopName, 1)] && nodes[5].outputs == [outName]
    ensures RunNodes(nodes, 4, s4).Some?
    ensures outName in RunNodes(nodes, 4, s4).value && RunNodes(nodes, 4, s4).value[outName] == Tensor(rows)
  {
    var loopOuts := [PortName(loopName, 0), PortName(loopName, 1)];
    RunNodesStep(nodes, 4, s4, [Atom(0), Tensor(rows)]);
    var s5 := s4[PortName(loopName, 0) := Atom(0)][PortName(loopName, 1) := Tensor(rows)];
    assert loopOuts[1..] == [PortName(loopName, 1)] && [Atom(0), Tensor(rows)][1..] == [Tensor(rows)];
    BindOne(s4[PortName(loopName, 0) := Atom(0)], PortName(loopName, 1), Tensor(rows));
    assert Bind(s4, loopOuts, [Atom(0), Tensor(rows)]) == s5;
    EvalIdentity(nodes[5], s5);
    RunOne(nodes, 5, s5, Tensor(rows));
    var s6 := s5[outName := Tensor(rows)];
    assert RunNodes(nodes, 6, s6) == Some(s6);
  }

  /** The scope after the four nodes ahead of the Loop, for a condition
      of `n` rows. */
  function LoopInputsScope(env: Scope, c: nat, n: nat): Scope
  {
    env[PortName(Fresh("Size", c), 0) := IntVal(n)][Fresh("condition", c + 1) := BoolVal(true)]
       [Fresh("fake_var", c + 2) := Atom(0)][PortName(Fresh("loop_gather_indices", c + 3), 0) := Tensor([IntVal(n)])]
  }

  /** The values the rewrite defines ahead of the Loop leave the captured
      inputs alone. */
  lemma InputsSurvive(x: Name, c: nat, env: Scope, v: Value, n: nat)
    requires Predates(x, c) && x in env && env[x] == v
    ensures x in LoopInputsScope(env, c, n) && LoopInputsScope(env, c, n)[x] == v
  {
    FreshPortIsNew(x, c, "Size", c, 0);
    FreshPortIsNew(x, c, "loop_gather_indices", c + 3, 0);
  }

  /** The first four nodes of the rewrite: size, flag, placeholder and
      trip count. */
  lemma SelectPrefixRuns(info: TypeInfo, node: SelectNode, c: nat, env: Scope, conds: seq<bool>)
    requires SelectLowering(info, node, c).result.Success?
    requires node.inputs[0] in env && env[node.inputs[0]] == Tensor(Flags(conds))
    ensures var nodes := SelectLowering(info, node, c).result.value;
      RunNodes(nodes, 0, env) == RunNodes(nodes, 4, LoopInputsScope(env, c, |conds|))
  {
    SelectLoweringOrder(info, node, c);
    LoopInputsRun(SelectLowering(info, node, c).result.value, env, node.inputs[0], Fresh("Size", c),
                  Fresh("condition", c + 1), Fresh("fake_var", c + 2), Fresh("loop_gather_indices", c + 3), conds);
  }

  /** The Loop and the final Identity of the rewrite. */
  lemma SelectSuffixRuns(info: TypeInfo, node: SelectNode, c: nat, env: Scope,
                         conds: seq<bool>, xs: seq<Value>, ys: seq<Value>)
    requires SelectLowering(info, node, c).result.Success?
    requires |node.inputs| >= 3
    requires Captured(node.inputs[0], c) && Captured(node.inputs[1], c) && Captured(node.inputs[2], c)
    requires node.inputs[0] in env && env[node.inputs[0]] == Tensor(Flags(conds))
    requires node.inputs[1] in env && env[node.inputs[1]] == Tensor(xs)
    requires node.inputs[2] in env && env[node.inputs[2]] == Tensor(ys)
    requires |xs| == |conds| && |ys| == |conds|
    ensures var r := RunNodes(SelectLowering(info, node, c).result.value, 4, LoopInputsScope(env, c, |conds|));
      && r.Some?
      && PortName(node.name, 0) in r.value
      && r.value[PortName(node.name, 0)] == Tensor(SelectRows(conds, xs, ys))
  {
    SelectLoweringOrder(info, node, c);
    var s4 := LoopInputsScope(env, c, |conds|);
    InputsSurvive(node.inputs[0], c, env, Tensor(Flags(conds)), |conds|);
    InputsSurvive(node.inputs[1], c, env, Tensor(xs), |conds|);
    InputsSurvive(node.inputs[2], c, env, Tensor(ys), |conds|);
    LoopSelects(info, node, PortName(Fresh("Size", c), 0), info.GetDtype(node.inputs[1]), c + 1, c, s4, conds, xs, ys);
    LoopAndOutputRun(SelectLowering(info, node, c).result.value, s4, Fresh("loop", c + 4), PortName(node.name, 0),
                     SelectRows(conds, xs, ys));
  }

  /**
   * The whole rewrite computes Select: run on a scope where the condition
   * is a one-dimensional boolean tensor of `N` rows and `x`, `y` have `N`
   * rows each, the node list defines the original node's output as the
   * tensor whose row `k` is `x[k]` when `cond[k]` holds and `y[k]`
   * otherwise.
   */
  lemma SelectComputesRows(info: TypeInfo, node: SelectNode, c: nat, env: Scope,
                           conds: seq<bool>, xs: seq<Value>, ys: seq<Value>)
    requires SelectLowering(info, node, c).result.Success?
    requires |node.inputs| >= 3
    requires Captured(node.inputs[0], c) && Captured(node.inputs[1], c) && Captured(node.inputs[2], c)
    requires node.inputs[0] in env && env[node.inputs[0]] == Tensor(Flags(conds))
    requires node.inputs[1] in env && env[node.inputs[1]] == Tensor(xs)
    requires node.inputs[2] in env && env[node.inputs[2]] == Tensor(ys)
    requires |xs| == |conds| && |ys| == |conds|
    ensures var r := RunNodes(SelectLowering(info, node, c).result.value, 0, env);
      && r.Some?
      && PortName(node.name, 0) in r.value
      && r.value[PortName(node.name, 0)] == Tensor(SelectRows(conds, xs, ys))
  {
    SelectPrefixRuns(info, node, c, env, conds);
    SelectSuffixRuns(info, node, c, env, conds, xs, ys);
  }
}

=== FILE: wrappers.dfy ===
/** Option and Result, usable with `:-`. */
module Wrappers {

  datatype Option<+T> = None | Some(value: T)

  datatype Result<+T, +E> = Success(value: T) | Failure(error: E) {

    predicate IsFailure() {
      Failure?
    }

    function PropagateFailure<U>(): Result<U, E>
      requires Failure?
    {
      Failure(error)
    }

    function Extract(): T
      requires Success?
    {
      value
    }
  }
}
